=== FILE: README.md ===
# EnterobaseAssemblyDownloader in Dafny

A model of the class `EnterobaseAssemblyDownloader`. The class downloads genome assemblies from Enterobase as FASTA files. It takes a tab-separated list of names and assembly barcodes. For each barcode it looks up the assembly, downloads the FASTA file behind the first listed link, and records every failed lookup or download in one of two error lists. At the end it writes both lists to log files; as written, both files receive the barcode-error list (see "## Findings").

Every network answer is an input value. These include the login answer, the lookup answers and the download answers. What the class decides around those answers is modelled as pure functions over immutable datatypes.

Modules, in program order:

- `Wrappers`: `Option` and `Result`.
- `Text`: Python's `strip`, `split`, `join`, `replace` and `str(int)` on strings.
- `Base64`: the encoding of section 4 of RFC 4648 with its decoder, plus the 76-character line wrapping of Python's `base64.encodestring`.
- `Config`: the constructor. It normalises the interval, checks the database name and checks that the barcode list exists.
- `Barcodes`: `import_barcodes`. The Python dict is an ordered sequence of entries with the dict's update rule: a new key is appended, and a known key keeps its place and takes the new value.
- `Auth`: `get_api_token` and `__create_request`. The token is fetched lazily. The request header is the Basic scheme of section 2 of RFC 7617, with the token as user-id and an empty password.
- `Downloader`: `download_assemblies`, `__write_error_messages` and the file names.
  - `ProcessEntry` is one iteration of the loop, up to the counter.
  - `Loop` folds it over the registry.
  - `Effects` and `Replay` restate the loop as a list of per-entry effects applied in turn. The whole-loop lemmas are proved on that form.

A run ends in one of two ways:

- `Success` with the final `Run`. A `Run` holds the session, the requests sent, both error lists, the files written (path to contents), the counter, the progress messages and the sleeps.
- `Failure(Aborted(..))`, when an exception the code does not catch stops the program. The abort keeps the files already written and the count already reported.

## Model

| member | source | states |
|---|---|---|
| Config.NormaliseInterval | ClassEnterobaseAssemblyDownloader.py:33 | the interval used is the requested one when positive and 4 otherwise, so it is always positive |
| Config.NewDownloader | ClassEnterobaseAssemblyDownloader.py:33-55 | construction succeeds iff the database is one of the seven listed names and the barcode list is a file; an invalid name is reported before a missing file; on success the settings hold the database, the normalised interval, the append flag, the list path and the output directory with a separator appended |
| Barcodes.ParseLine | ClassEnterobaseAssemblyDownloader.py:99 | a line is accepted iff its stripped form holds exactly one tab; then name and barcode are the two tab-free sides; otherwise the error is the number of fields the split produced |
| Barcodes.ParseFormatted | ClassEnterobaseAssemblyDownloader.py:99 | a line written as name, tab, barcode, newline reads back as that entry |
| Barcodes.Put | ClassEnterobaseAssemblyDownloader.py:100 | dict assignment: a known key keeps its position, a new key is appended, other entries are unchanged, the key maps to the new barcode, and keys stay unique |
| Barcodes.PutLookup | ClassEnterobaseAssemblyDownloader.py:100 | after assignment the key looks up to the new barcode and every other key looks up to what it did before |
| Barcodes.Import | ClassEnterobaseAssemblyDownloader.py:95-102 | the import succeeds iff every line holds exactly one tab; otherwise it names the first line that does not and how many fields it split into; a successful registry has unique names and at most one entry per line |
| Barcodes.ImportWithoutDuplicates | ClassEnterobaseAssemblyDownloader.py:96-100 | with no repeated name the registry is exactly the lines' entries, one per line, in file order |
| Barcodes.ImportLastWins | ClassEnterobaseAssemblyDownloader.py:96-100 | against independent reference definitions: the keys are the names in order of first occurrence, and each key holds the barcode of its last line |
| Barcodes.InsertWithoutDuplicates | ClassEnterobaseAssemblyDownloader.py:98-100 | storing entries with distinct names one after another gives exactly those entries, in order |
| Barcodes.InsertOrder | ClassEnterobaseAssemblyDownloader.py:98-100 | storing entries one after another leaves the keys in order of first occurrence (an overwritten key keeps its first position) |
| Barcodes.InsertLastWins | ClassEnterobaseAssemblyDownloader.py:98-100 | storing entries one after another leaves each key holding the barcode of its last entry |
| Auth.GetApiToken | ClassEnterobaseAssemblyDownloader.py:80-92 | one login request whatever the state; it succeeds iff the endpoint returns a token, which replaces the cached one; an HTTP error becomes the printed message and ends the run |
| Auth.EnsureToken | ClassEnterobaseAssemblyDownloader.py:149-150 | a held token is kept with no login sent; without one, exactly one login is sent, the result holds a token iff the login succeeded, and that token is the one the login returned; a failed login fails with the failure `get_api_token` reports |
| Auth.CreateRequest | ClassEnterobaseAssemblyDownloader.py:144-156 | the request is built iff a token is held or the login succeeds; it carries the given URL and the header "Basic " followed by the plain base64 of the token and a colon; the session changes only by that one lazy login, whose token is the one the request then uses; a failed login fails the call with the failure `get_api_token` reports |
| Auth.AuthorizationIsBasic | ClassEnterobaseAssemblyDownloader.py:153-154 | the line-wrapped encoding with its newlines removed is the plain encoding of RFC 4648; the header has no newline, and its credentials decode back to the token and a colon |
| Base64.Encode | ClassEnterobaseAssemblyDownloader.py:153 | the encoding has four characters for every started group of three octets |
| Base64.TestVectors | ClassEnterobaseAssemblyDownloader.py:153 | the encoding reproduces the test vectors of section 10 of RFC 4648, and octets 251 and 255 encode with the last two alphabet characters `+` and `/` |
| Base64.EncodeAlphabet | ClassEnterobaseAssemblyDownloader.py:153 | every character of an encoding is in the alphabet of RFC 4648 or is the pad |
| Base64.RoundTrip | ClassEnterobaseAssemblyDownloader.py:153 | decoding the encoding of any octet string gives the string back |
| Base64.UnwrapLines | ClassEnterobaseAssemblyDownloader.py:153 | removing every newline from the 57-octet-per-line output of `encodestring` gives the unwrapped encoding |
| Base64.EncodeHasNoNewline | ClassEnterobaseAssemblyDownloader.py:153 | a plain encoding contains no newline, so the removal touches only the line breaks |
| Downloader.FastaName | ClassEnterobaseAssemblyDownloader.py:120-123 | the FASTA path is the output directory, then the name (with `__` and the barcode when appending is on), then `.fna` |
| Downloader.FastaNamesDistinct | ClassEnterobaseAssemblyDownloader.py:123 | without the appended barcode, distinct names get distinct paths |
| Downloader.AppendedNamesCanCollide | ClassEnterobaseAssemblyDownloader.py:121 | with the appended barcode, two different entries can get the same path |
| Downloader.ProcessEntry | ClassEnterobaseAssemblyDownloader.py:108-131 | given the answers as modelled, an entry stops the run iff the login it needs fails, the lookup fails other than by an HTTP error or lists no assembly, or the download fails other than by an HTTP error, and the abort names which (for a failed login, the failure `get_api_token` reports, such as the printed HTTP-error message); a failed lookup sends one request and adds exactly the barcode-error record with the name, barcode, query URL and "Reason: " text; otherwise the first link is downloaded; a status other than 200 adds the fasta-error record with that status code, an HTTP error adds the one with the "Failed download as " text; status 200 saves the body; a login made here yields the login's token, and every request carries the session's token |
| Downloader.Loop | ClassEnterobaseAssemblyDownloader.py:105-135 | the run completes iff the registry is empty, or a token can be had and no entry crashes; a completed run counted every entry, only extended the error lists and requests, and logged in at most once, and a run that had to log in holds the login's token; an aborted run reports a count below the number of entries, and a login that fails aborts at the first entry with the login's failure, nothing counted and no new file written |
| Downloader.LoopAborted | ClassEnterobaseAssemblyDownloader.py:108-135 | an aborted run stops at entry k, the number of entries it counted: the loop over the first k entries completes, the abort keeps exactly the files that loop wrote, and entry k itself fails for the reason the abort names |
| Downloader.LoopReplay | ClassEnterobaseAssemblyDownloader.py:108-135 | a completed loop equals the per-entry effects applied in order, one effect per entry |
| Downloader.LoopProgress | ClassEnterobaseAssemblyDownloader.py:132-134 | a completed loop reports every entry exactly once, in registry order, with the running count 1, 2, ... |
| Downloader.LoopSleeps | ClassEnterobaseAssemblyDownloader.py:135 | a completed loop sleeps exactly once per entry, for the configured interval, whatever the outcome |
| Downloader.LoopCounts | ClassEnterobaseAssemblyDownloader.py:111-131 | every entry ends in exactly one of three outcomes; the barcode-error list grows by the failed lookups and the fasta-error list by the failed downloads; one lookup request is sent per entry, plus one download request per entry whose lookup found a link |
| Downloader.LoopRecords | ClassEnterobaseAssemblyDownloader.py:126-131 | against reference lists built entry by entry: the barcode-error list grows by exactly the records of the failed lookups and the fasta-error list by exactly the records of the failed downloads, contents and registry order included |
| Downloader.LoopFiles | ClassEnterobaseAssemblyDownloader.py:119-125 | the files written are exactly the FASTA paths of the entries whose download returned 200; each holds the body of the last such entry written to that path, and every other file is unchanged |
| Downloader.LoopFileContents | ClassEnterobaseAssemblyDownloader.py:119-125 | without the appended barcode and with unique names, each entry whose download returned 200 leaves its own body in its own file |
| Downloader.SavedBodyAt | ClassEnterobaseAssemblyDownloader.py:123-125 | without the appended barcode and with unique names, no later entry overwrites a saved entry's file |
| Downloader.SavedPathsAvoidLogs | ClassEnterobaseAssemblyDownloader.py:120-124 | no FASTA path written by the loop is the name of either log file (the names built at line 161) |
| Downloader.LoopHeaders | ClassEnterobaseAssemblyDownloader.py:149-154 | every request of a completed run carries the header built from the one token the final session holds |
| Downloader.WriteErrorMessages | ClassEnterobaseAssemblyDownloader.py:159-165 | one log file named from the output directory, the base name and the time stamp holds the records' lines; no other file changes |
| Downloader.LogRoundTrip | ClassEnterobaseAssemblyDownloader.py:162-163 | when no field holds a tab or newline, splitting the log into lines and the lines on tabs gives back the records |
| Downloader.RejectedLogin | ClassEnterobaseAssemblyDownloader.py:83-90 | a fresh downloader whose login gets an HTTP error stops with the printed message, having counted nothing and written neither a FASTA file nor a log |
| Downloader.LogNamesDiffer | ClassEnterobaseAssemblyDownloader.py:161 | the barcode-error log and the fasta-error log get different names whatever the two time stamps |
| Downloader.LogNamesDistinct | ClassEnterobaseAssemblyDownloader.py:161 | no log name is a FASTA path, so writing the logs overwrites no download |
| Downloader.DownloadAssemblies | ClassEnterobaseAssemblyDownloader.py:137-139 | as written: a completed run adds exactly the two log files to the loop's files and leaves every file the loop wrote as it was; both logs hold the lines of the barcode-error records; an aborted run writes no log |
| Downloader.FastaLogAsWritten | ClassEnterobaseAssemblyDownloader.py:139 | as written, a run with a failed lookup and no failed download leaves a non-empty fasta-error log, where the corrected one is empty |
| Downloader.FastaLogReadsBarcodeErrors | ClassEnterobaseAssemblyDownloader.py:139 | as written, the fasta-error log reads back as the barcode-error records |
| Downloader.DownloadAssembliesIntended | ClassEnterobaseAssemblyDownloader.py:137-139 | corrected: each log holds the lines of its own list's records; every file the loop wrote is kept as it was, and nothing else differs from the loop's result |
| Downloader.LogsReadBack | ClassEnterobaseAssemblyDownloader.py:137-139 | corrected: each log reads back as its own list's records |

## Left out

- HTTP, JSON decoding and `urllib` are left out. Each answer is an input: the login answer as `LoginResponse`, and the lookup and download answers for an entry as one `Exchange`. The loop takes one `Exchange` per registry entry.
- The login URL, credential prompts, `getpass` and `pipes.quote` are interactive I/O and are not modelled. One `LoginResponse` answers every login of a run; the model proves that at most one login happens.
- File-system effects are left out: opening and writing files, and `os.makedirs`. `os.path.isfile` is the `listIsFile` parameter and `os.sep` is the `sep` parameter. Written files are a map from path to contents. Write failures are not modelled.
- The barcode list is given as its sequence of lines, each with its line break. Reading the file is not modelled.
- `time.sleep` is a sequence of sleep durations. `time.strftime` is one stamp parameter per log file, because the code reads the clock once per log.
- The program as written would break in two places under Python 3:
  - `base64.encodestring` on a `str`, and that function's removal in Python 3.9.
  - Writing response bytes to a text-mode file.

  The model follows the evident intent instead. The token is a sequence of octets, and the FASTA body is written as octets.
- A third break would appear only in the corrected version, `Downloader.DownloadAssembliesIntended`. There the fasta-error list reaches the join at line 163, and a record from line 127 holds the integer status code, which `"\t".join` rejects. As written, line 163 only ever joins barcode-error records from line 131, whose fields are all strings. In the corrected version, `FastaFields` writes the status code as its decimal digits.
- HTTP error bodies are strings. The `b'...'` form Python would print for bytes is not modelled.
- A token that is JSON `null` is not modelled. The cached token would stay `None`, so the test at line 149 would hold before every request and each request would log in again. This breaks the "at most one login" property the model proves. Before that, line 57 of `downloadAssemblies.py` would raise a `TypeError` when it concatenates "API token: " with `None`.
- The messages printed at lines 59 and 82 ("A Downloader object has been successfully initiated." and "Retrieving an API token from Enterobase.") are console output only and are not modelled. The progress message of line 133 is modelled as `Progress`.
- A `Served` download answer may carry any status code. Under Python 3, `urlopen` raises `HTTPError` for a status outside 200-299 once redirects are followed. Such a status therefore reaches line 129 as a `DownloadHttpError`, and only a 2xx status other than 200 takes the branch at line 127. The model does not restrict `Served` codes to 2xx.
- A lookup or download that fails other than by an HTTP error is modelled as one undifferentiated crash: `LookupUnreadable` or `DownloadUnreachable`. This covers a refused connection, a timeout, or a link that `urllib` rejects. The exception's kind and text are not modelled.
- The properties `api_token`, `barcodes` and `valid_db` are plain accessors and are not modelled.
- `downloadAssemblies.py` is not part of this model. It only parses the command line and calls the class in order.
- Downloader.LoopProgress, Downloader.LoopSleeps, Downloader.LoopCounts, Downloader.LoopRecords, Downloader.LoopFiles, Downloader.LoopFileContents and Downloader.LoopHeaders: these describe completed runs only. An abort keeps only the files and the count reached, as Downloader.LoopAborted states; the error lists, progress and sleeps of an aborted run are not kept, because the program stops without writing the lists.

## Findings

| source | as written | input that shows it | evidently intended | confidence | as-written member | corrected member |
|---|---|---|---|---|---|---|
| ClassEnterobaseAssemblyDownloader.py:139 | the fasta-error log is written from `self.__barcode_error_log`; the fasta-error list is never written anywhere | a run with one entry whose lookup answers an HTTP error: the barcode-error log and the fasta-error log both hold that lookup's record, and no download failed | the fasta-error log holds the fasta-error list (`self.__fasta_error_log`), which the code fills at lines 127 and 129 | high (not executed) | Downloader.DownloadAssemblies, with Downloader.FastaLogAsWritten and Downloader.FastaLogReadsBarcodeErrors | Downloader.DownloadAssembliesIntended, with Downloader.LogsReadBack |

=== FILE: auth.dfy ===
/** Token handling: `get_api_token` always asks the login endpoint;
    `__create_request` asks only while no token is held, then builds a
    request carrying the header `Authorization: Basic <base64(token ":")>`,
    the Basic scheme of section 2 of RFC 7617 with the token as user-id
    and an empty password. */
module Auth {
  import opened Wrappers
  import Text
  import Base64

  /** The API token, as the octets that are encoded into the header. */
  type Token = seq<Base64.uint8>

  /** What the login endpoint answered: a JSON body with a token, an HTTP
      error, or a failure the code does not catch (no connection, a
      timeout, bad JSON, no `api_token`). */
  datatype LoginResponse =
    | LoginOk(token: Token)
    | LoginHttpError(code: int, msg: string, url: string, body: string)
    | LoginUnreadable

  /** Why a login ended the run. An HTTP error is printed and the program
      exits with status 1; an unreadable body raises an uncaught exception. */
  datatype AuthFailure =
    | LoginRejected(message: string)
    | LoginCrashed

  /** The downloader's authentication state: the cached token (`None`
      until a login succeeds) and how many login requests were sent. */
  datatype Session = Session(token: Option<Token>, logins: nat)

  /** The session a new downloader starts with. */
  const NoSession: Session := Session(None, 0)

  /** `:` separating user-id and (empty) password. */
  const Colon: Base64.uint8 := 58

  /** The two lines printed when the login endpoint answers an HTTP error. */
  function LoginErrorMessage(code: int, msg: string, url: string, body: string): string {
    "A connection error ocurred:\n" + Text.IntToDecimal(code) + " " + msg + ". <" + url + ">\n Reason: " + body
  }

  /** `get_api_token`: one login request, whatever the current state; on
      success the new token replaces the cached one. */
  function GetApiToken(s: Session, login: LoginResponse): (r: Result<Session, AuthFailure>)
    ensures r.Success? <==> login.LoginOk?
    ensures r.Success? ==> r.value.token == Some(login.token) && r.value.logins == s.logins + 1
    ensures login.LoginHttpError? ==>
      r == Failure(LoginRejected(LoginErrorMessage(login.code, login.msg, login.url, login.body)))
    ensures login.LoginUnreadable? ==> r == Failure(LoginCrashed)
  {
    match login
    case LoginOk(t) => Success(Session(Some(t), s.logins + 1))
    case LoginHttpError(code, msg, url, body) => Failure(LoginRejected(LoginErrorMessage(code, msg, url, body)))
    case LoginUnreadable => Failure(LoginCrashed)
  }

  /** The lazy part of `__create_request`: log in only while no token is
      held; a held token is kept as it is, with no request sent. */
  function EnsureToken(s: Session, login: LoginResponse): (r: Result<Session, AuthFailure>)
    ensures s.token.Some? ==> r == Success(s)
    ensures s.token.None? ==> (r.Success? <==> login.LoginOk?)
    ensures s.token.None? && r.Success? ==> r.value.token == Some(login.token)
    ensures r.Failure? ==> r == Failure(GetApiToken(s, login).error)
    ensures r.Success? ==> r.value.token.Some?
    ensures r.Success? ==> r.value.logins == s.logins + (if s.token.None? then 1 else 0)
  {
    if s.token.None? then GetApiToken(s, login) else Success(s)
  }

  /** The header value as the code builds it: the line-wrapped base64 of
      `token + ":"` with every newline removed, after "Basic ". */
  function Authorization(token: Token): string {
    "Basic " + Text.Remove(Base64.EncodeLines(token + [Colon]), '\n')
  }

  /** The built header is exactly the Basic credentials of RFC 7617: plain
      base64 of `token:`, from which the token can be decoded back. */
  lemma {:induction false} AuthorizationIsBasic(token: Token)
    ensures Authorization(token) == Header(token)
    ensures Base64.Decode(Authorization(token)[6..]) == Some(token + [Colon])
    ensures '\n' !in Authorization(token)
  {
    Base64.UnwrapLines(token + [Colon]);
    Base64.RoundTrip(token + [Colon]);
    Base64.EncodeHasNoNewline(token + [Colon]);
    assert Authorization(token)[6..] == Base64.Encode(token + [Colon]);
  }

  /** The header RFC 7617 prescribes for `token` with an empty password. */
  function Header(token: Token): string {
    "Basic " + Base64.Encode(token + [Colon])
  }

  /** An outgoing request: its URL and its Authorization header. */
  datatype Request = Request(url: string, authorization: string)

  /** `__create_request`: make sure a token is held, then attach it. */
  function CreateRequest(s: Session, login: LoginResponse, url: string)
    : (r: Result<(Session, Request), AuthFailure>)
    ensures r.Success? <==> s.token.Some? || login.LoginOk?
    ensures s.token.Some? ==> r.Success? && r.value.0 == s
    ensures s.token.None? && r.Success? ==> r.value.0.token == Some(login.token)
    ensures r.Failure? ==> r == Failure(GetApiToken(s, login).error)
    ensures r.Success? ==>
      && r.value.0.token.Some?
      && r.value.0.logins == s.logins + (if s.token.None? then 1 else 0)
      && r.value.1.url == url
      && r.value.1.authorization == Header(r.value.0.token.value)
  {
    match EnsureToken(s, login)
    case Failure(f) => Failure(f)
    case Success(s') =>
      AuthorizationIsBasic(s'.token.value);
      Success((s', Request(url, Authorization(s'.token.value))))
  }
}

=== FILE: base64.dfy ===
/** The base 64 encoding of section 4 of RFC 4648 (standard alphabet, `=`
    padding), its decoding, and the line-wrapped form produced by Python's
    `base64.encodestring`, which the request builder strips of newlines. */
module Base64 {
  import opened Wrappers
  import Text

  /** One octet. */
  type uint8 = x: int | 0 <= x < 256

  /** One 6-bit group, the index of a character of the alphabet. */
  type sextet = x: int | 0 <= x < 64

  /** Table 1 of RFC 4648: A-Z, a-z, 0-9, '+', '/'. */
  function Char(i: sextet): (c: char)
    ensures c != '=' && c != '\n'
  {
    if i < 26 then (65 + i) as char
    else if i < 52 then (97 + (i - 26)) as char
    else if i < 62 then (48 + (i - 52)) as char
    else if i == 62 then '+'
    else '/'
  }

  /** The inverse of the alphabet table; `None` for characters outside it. */
  function Index(c: char): (r: Option<sextet>)
    ensures r.Some? ==> Char(r.value) == c
  {
    if 'A' <= c <= 'Z' then Some(c as int - 65)
    else if 'a' <= c <= 'z' then Some(c as int - 97 + 26)
    else if '0' <= c <= '9' then Some(c as int - 48 + 52)
    else if c == '+' then Some(62)
    else if c == '/' then Some(63)
    else None
  }

  lemma {:induction false} IndexChar(i: sextet)
    ensures Index(Char(i)) == Some(i)
  {
  }

  /** Characters an encoding may contain: the alphabet and the pad. */
  predicate InOutput(c: char) {
    Index(c).Some? || c == '='
  }

  /** The test vectors of section 10 of RFC 4648, plus one that reaches
      the last two characters of the alphabet. */
  lemma {:induction false} TestVectors()
    ensures Encode([]) == ""
    ensures Encode([102]) == "Zg=="
    ensures Encode([102, 111]) == "Zm8="
    ensures Encode([102, 111, 111]) == "Zm9v"
    ensures Encode([102, 111, 111, 98]) == "Zm9vYg=="
    ensures Encode([102, 111, 111, 98, 97]) == "Zm9vYmE="
    ensures Encode([102, 111, 111, 98, 97, 114]) == "Zm9vYmFy"
    ensures Encode([251, 255]) == "+/8="
  {
  }

  /** Three octets become four characters (section 4, 24-bit groups). */
  function EncodeGroup(b0: uint8, b1: uint8, b2: uint8): string {
    [Char(b0 / 4), Char((b0 % 4) * 16 + b1 / 16), Char((b1 % 16) * 4 + b2 / 64), Char(b2 % 64)]
  }

  /** The encoding of an octet string: full groups of three, then a final
      group of one or two octets padded with `==` or `=`. */
  function Encode(s: seq<uint8>): (r: string)
    ensures |r| == 4 * ((|s| + 2) / 3)
    decreases |s|
  {
    if |s| == 0 then ""
    else if |s| == 1 then [Char(s[0] / 4), Char((s[0] % 4) * 16), '=', '=']
    else if |s| == 2 then [Char(s[0] / 4), Char((s[0] % 4) * 16 + s[1] / 16), Char((s[1] % 16) * 4), '=']
    else EncodeGroup(s[0], s[1], s[2]) + Encode(s[3..])
  }

  /** The octets spread over consecutive 6-bit groups: 6+2, 4+4 and 2+6 bits. */
  function First(c0: sextet, c1: sextet): uint8 {
    (c0 as int) * 4 + (c1 as int) / 16
  }

  function Second(c1: sextet, c2: sextet): uint8 {
    ((c1 as int) % 16) * 16 + (c2 as int) / 4
  }

  function Third(c2: sextet, c3: sextet): uint8 {
    ((c2 as int) % 4) * 64 + c3 as int
  }

  /** Four unpadded characters become three octets. */
  function DecodeGroup(t: string): Option<seq<uint8>>
    requires |t| == 4
  {
    match (Index(t[0]), Index(t[1]), Index(t[2]), Index(t[3]))
    case (Some(c0), Some(c1), Some(c2), Some(c3)) =>
      Some([First(c0, c1), Second(c1, c2), Third(c2, c3)])
    case _ => None
  }

  /** The last group, which may carry one or two pad characters. */
  function DecodeLast(t: string): Option<seq<uint8>>
    requires |t| == 4
  {
    if t[2] == '=' && t[3] == '=' then
      match (Index(t[0]), Index(t[1]))
      case (Some(c0), Some(c1)) => Some([First(c0, c1)])
      case _ => None
    else if t[3] == '=' then
      match (Index(t[0]), Index(t[1]), Index(t[2]))
      case (Some(c0), Some(c1), Some(c2)) => Some([First(c0, c1), Second(c1, c2)])
      case _ => None
    else DecodeGroup(t)
  }

  /** Decoding: the length must be a multiple of four and padding may only
      end the text. */
  function Decode(t: string): Option<seq<uint8>>
    decreases |t|
  {
    if |t| == 0 then Some([])
    else if |t| < 4 then None
    else if |t| == 4 then DecodeLast(t)
    else
      var group, rest := DecodeGroup(t[..4]), Decode(t[4..]);
      if group.Some? && rest.Some? then Some(group.value + rest.value) else None
  }

  lemma {:induction false} GroupRoundTrip(b0: uint8, b1: uint8, b2: uint8)
    ensures DecodeGroup(EncodeGroup(b0, b1, b2)) == Some([b0, b1, b2])
    ensures DecodeLast(EncodeGroup(b0, b1, b2)) == Some([b0, b1, b2])
  {
    var c0, c1, c2, c3 := b0 / 4, (b0 % 4) * 16 + b1 / 16, (b1 % 16) * 4 + b2 / 64, b2 % 64;
    IndexChar(c0);
    IndexChar(c1);
    IndexChar(c2);
    IndexChar(c3);
    assert c1 / 16 == b0 % 4 && c1 % 16 == b1 / 16;
    assert c2 / 4 == b1 % 16 && c2 % 4 == b2 / 64;
  }

  lemma {:induction false} OneRoundTrip(b0: uint8)
    ensures Decode(Encode([b0])) == Some([b0])
  {
    var c0, c1 := b0 / 4, (b0 % 4) * 16;
    IndexChar(c0);
    IndexChar(c1);
    assert First(c0, c1) == b0;
    assert Encode([b0]) == [Char(c0), Char(c1), '=', '='];
  }

  lemma {:induction false} TwoRoundTrip(b0: uint8, b1: uint8)
    ensures Decode(Encode([b0, b1])) == Some([b0, b1])
  {
    var c0, c1, c2 := b0 / 4, (b0 % 4) * 16 + b1 / 16, (b1 % 16) * 4;
    IndexChar(c0);
    IndexChar(c1);
    IndexChar(c2);
    assert First(c0, c1) == b0;
    assert Second(c1, c2) == b1;
    assert Encode([b0, b1]) == [Char(c0), Char(c1), Char(c2), '='];
  }

  /** Past the last group, decoding is group by group. */
  lemma {:induction false} DecodeCons(t: string)
    requires |t| > 4
    ensures Decode(t) == if DecodeGroup(t[..4]).Some? && Decode(t[4..]).Some?
                         then Some(DecodeGroup(t[..4]).value + Decode(t[4..]).value) else None
  {
  }

  lemma {:induction false} FirstThree(s: seq<uint8>)
    requires |s| >= 3
    ensures [s[0], s[1], s[2]] + s[3..] == s
  {
    assert s == s[..3] + s[3..];
  }

  /** A leading full group decodes in front of the rest. */
  lemma {:induction false} GroupsRoundTrip(s: seq<uint8>)
    requires |s| > 3
    requires Decode(Encode(s[3..])) == Some(s[3..])
    ensures Decode(Encode(s)) == Some(s)
  {
    GroupRoundTrip(s[0], s[1], s[2]);
    var g, u := EncodeGroup(s[0], s[1], s[2]), Encode(s[3..]);
    var t := Encode(s);
    assert t == g + u;
    assert |u| >= 4;
    assert t[..4] == g && t[4..] == u;
    DecodeCons(t);
    FirstThree(s);
  }

  /** Decoding undoes encoding. */
  lemma {:induction false} RoundTrip(s: seq<uint8>)
    ensures Decode(Encode(s)) == Some(s)
    decreases |s|
  {
    if |s| == 1 {
      OneRoundTrip(s[0]);
      assert s == [s[0]];
    } else if |s| == 2 {
      TwoRoundTrip(s[0], s[1]);
      assert s == [s[0], s[1]];
    } else if |s| == 3 {
      GroupRoundTrip(s[0], s[1], s[2]);
      assert Encode(s) == EncodeGroup(s[0], s[1], s[2]) + Encode(s[3..]);
      assert s == [s[0], s[1], s[2]];
    } else if |s| > 3 {
      RoundTrip(s[3..]);
      GroupsRoundTrip(s);
    }
  }

  /** Encoding is piecewise over a prefix of whole 24-bit groups. */
  lemma {:induction false} EncodeAppend(a: seq<uint8>, b: seq<uint8>)
    requires |a| % 3 == 0
    ensures Encode(a + b) == Encode(a) + Encode(b)
    decreases |a|
  {
    if |a| == 0 {
      assert a + b == b;
    } else {
      assert (a + b)[3..] == a[3..] + b;
      assert (a + b)[..3] == a[..3];
      EncodeAppend(a[3..], b);
    }
  }

  /** Octets per output line of `base64.encodestring` (76 characters). */
  const LineOctets: nat := 57

  /** Python's `base64.encodestring`: the input cut into chunks of 57
      octets, each encoded and followed by a newline. */
  function EncodeLines(s: seq<uint8>): (r: string)
    ensures |s| > 0 ==> |r| > 0 && r[|r| - 1] == '\n'
    decreases |s|
  {
    if |s| == 0 then ""
    else if |s| <= LineOctets then Encode(s) + "\n"
    else Encode(s[..LineOctets]) + "\n" + EncodeLines(s[LineOctets..])
  }

  /** Every character of an encoding is in the alphabet or the pad. */
  lemma {:induction false} EncodeAlphabet(s: seq<uint8>)
    ensures forall i :: 0 <= i < |Encode(s)| ==> InOutput(Encode(s)[i])
    decreases |s|
  {
    if |s| >= 3 {
      EncodeAlphabet(s[3..]);
      var g := EncodeGroup(s[0], s[1], s[2]);
      forall i | 0 <= i < |Encode(s)| ensures InOutput(Encode(s)[i]) {
        if i < 4 {
          IndexChar(if i == 0 then s[0] / 4 else if i == 1 then (s[0] % 4) * 16 + s[1] / 16
                    else if i == 2 then (s[1] % 16) * 4 + s[2] / 64 else s[2] % 64);
        } else {
          assert Encode(s)[i] == Encode(s[3..])[i - 4];
        }
      }
    } else if |s| > 0 {
      forall i | 0 <= i < |Encode(s)| ensures InOutput(Encode(s)[i]) {
        if i == 0 {
          IndexChar(s[0] / 4);
        } else if i == 1 {
          IndexChar(if |s| == 1 then (s[0] % 4) * 16 else (s[0] % 4) * 16 + s[1] / 16);
        } else if i == 2 && |s| == 2 {
          IndexChar((s[1] % 16) * 4);
        }
      }
    }
  }

  lemma {:induction false} EncodeHasNoNewline(s: seq<uint8>)
    ensures '\n' !in Encode(s)
  {
    EncodeAlphabet(s);
    var t := Encode(s);
    assert forall i :: 0 <= i < |t| ==> t[i] != '\n' by {
      forall i | 0 <= i < |t| ensures t[i] != '\n' {
        assert InOutput(t[i]);
      }
    }
  }

  /** Removing newlines from one encoded line leaves its encoding. */
  lemma {:induction false} UnwrapLine(s: seq<uint8>, rest: string)
    ensures Text.Remove(Encode(s) + "\n" + rest, '\n') == Encode(s) + Text.Remove(rest, '\n')
  {
    var head := Encode(s);
    Text.RemoveAppend(head + "\n", rest, '\n');
    Text.RemoveAppend(head, "\n", '\n');
    EncodeHasNoNewline(s);
    Text.RemoveAbsent(head, '\n');
    assert Text.Remove("\n", '\n') == "";
  }

  /** Removing the newlines of the wrapped form gives the plain encoding. */
  lemma {:induction false} UnwrapLines(s: seq<uint8>)
    ensures Text.Remove(EncodeLines(s), '\n') == Encode(s)
    decreases |s|
  {
    if |s| == 0 {
    } else if |s| <= LineOctets {
      UnwrapLine(s, "");
      assert Encode(s) + "\n" + "" == Encode(s) + "\n";
    } else {
      var rest := EncodeLines(s[LineOctets..]);
      assert EncodeLines(s) == Encode(s[..LineOctets]) + "\n" + rest;
      UnwrapLine(s[..LineOctets], rest);
      UnwrapLines(s[LineOctets..]);
      EncodeAppend(s[..LineOctets], s[LineOctets..]);
      assert s == s[..LineOctets] + s[LineOctets..];
    }
  }
}

=== FILE: config.dfy ===
/** The downloader's constructor: the request interval is normalised, the
    database name and the barcode list are validated, and the output
    directory gets its trailing separator. A failed check ends the program
    (with exit status 0) before any network activity; here it is a
    `Failure` value. */
module Config {
  import opened Wrappers
  import Text

  /** The Enterobase databases the downloader accepts. */
  const ValidDatabases: seq<string> :=
    ["senterica", "ecoli", "clostridium", "vibrio", "yersinia", "helicobacter", "mcatarrhalis"]

  /** Seconds slept between entries when the requested interval is not positive. */
  const DefaultInterval: int := 4

  /** The state the constructor leaves behind, apart from credentials. */
  datatype Settings = Settings(
    interval: int,          // seconds slept after each entry
    appendBarcode: bool,    // name output files `<name>__<barcode>.fna`
    db: string,             // one of ValidDatabases
    barcodeList: string,    // path of the tab-separated input list
    outdir: string)         // output directory, ending in the separator

  /** Why construction stopped; both end the program with exit status 0. */
  datatype ConfigError =
    | InvalidDatabase(message: string)
    | MissingBarcodeList(message: string)

  function InvalidDatabaseMessage(): string {
    "Invalid database name. It must be chosen from " + Text.Join(ValidDatabases, ", ") + "."
  }

  const MissingListMessage: string := "Could not find the file of barcode list. Exiting."

  /** The interval actually used: the requested one when positive, the
      default otherwise. */
  function NormaliseInterval(requested: int): (r: int)
    ensures r > 0
    ensures requested > 0 ==> r == requested
    ensures requested <= 0 ==> r == DefaultInterval
  {
    if requested > 0 then requested else DefaultInterval
  }

  /** Settings the constructor can produce: a valid database and a positive
      interval. */
  predicate Valid(s: Settings) {
    s.db in ValidDatabases && s.interval > 0
  }

  /** The constructor. `listIsFile` is the answer of the file-system query
      on `barcodeList`; `sep` is the platform's path separator. The database
      is checked first, so an invalid name wins over a missing file. */
  function NewDownloader(barcodeList: string, outdir: string, timeInterv: int,
                         appendBarcode: bool, db: string, listIsFile: bool, sep: string)
    : (r: Result<Settings, ConfigError>)
    ensures r.Success? <==> (listIsFile && db in
                              {"senterica", "ecoli", "clostridium", "vibrio", "yersinia", "helicobacter", "mcatarrhalis"})
    ensures db !in ValidDatabases ==> r == Failure(InvalidDatabase(InvalidDatabaseMessage()))
    ensures db in ValidDatabases && !listIsFile ==> r == Failure(MissingBarcodeList(MissingListMessage))
    ensures r.Success? ==> Valid(r.value)
    ensures r.Success? ==>
      && r.value.db == db
      && r.value.interval > 0
      && (timeInterv > 0 ==> r.value.interval == timeInterv)
      && (timeInterv <= 0 ==> r.value.interval == DefaultInterval)
      && r.value.appendBarcode == appendBarcode
      && r.value.barcodeList == barcodeList
      && r.value.outdir == outdir + sep
  {
    var interval := NormaliseInterval(timeInterv);
    if db !in ValidDatabases then
      Failure(InvalidDatabase(InvalidDatabaseMessage()))
    else if !listIsFile then
      Failure(MissingBarcodeList(MissingListMessage))
    else
      Success(Settings(interval, appendBarcode, db, barcodeList, outdir + sep))
  }

}

=== FILE: downloader.dfy ===
/** `download_assemblies`: for each registry entry, in insertion order, the
    assembly is looked up by barcode, the first assembly's FASTA link is
    downloaded, and the outcome is either an output file, a barcode-error
    record or a fasta-error record; the counter is advanced and the
    downloader sleeps once per entry. At the end both error logs are
    written. Network answers are inputs (one `Exchange` per entry); only
    HTTP errors are caught, so anything else ends the whole run. */
module Downloader {
  import opened Wrappers
  import Text
  import Base64
  import opened Config
  import opened Barcodes
  import opened Auth

  /** The assembly search for one barcode in the configured database. */
  function LookupUrl(db: string, barcode: string): string {
    "http://enterobase.warwick.ac.uk/api/v2.0/" + db + "/assemblies?barcode=" + barcode + "&limit=50"
  }

  /** The answer to the lookup: an HTTP error, a readable JSON body with the
      `download_fasta_link` of each listed assembly, or a failure the code
      does not catch (no connection, a timeout, bad JSON, missing keys). */
  datatype LookupResponse =
    | LookupHttpError(msg: string, body: string)
    | LookupOk(links: seq<string>)
    | LookupUnreadable

  /** The answer to the FASTA download: a status code with the body, an
      HTTP error, or a failure that is not an HTTP error (no connection, a
      timeout, a link `urllib` refuses as a URL). */
  datatype DownloadResponse =
    | Served(code: int, body: seq<Base64.uint8>)
    | DownloadHttpError(msg: string, errorBody: string)
    | DownloadUnreachable

  /** What the network answers for one entry; `download` is only consulted
      when the lookup yields a link. */
  datatype Exchange = Exchange(lookup: LookupResponse, download: DownloadResponse)

  /** A failed lookup, as appended to the barcode-error list. */
  datatype BarcodeError = BarcodeError(name: string, barcode: string, queryUrl: string, reason: string)

  /** A failed download, as appended to the fasta-error list: a status other
      than 200, or an HTTP error. */
  datatype FastaError =
    | BadStatus(name: string, barcode: string, url: string, code: int)
    | DownloadFailed(name: string, barcode: string, url: string, reason: string)

  const InvalidResponseMessage: string := "Failed download with an invalid server response."

  /** Contents of a written file: downloaded FASTA octets or a log text. */
  datatype FileContent = Fasta(octets: seq<Base64.uint8>) | LogText(text: string)

  /** One progress message: the entry and the running count. */
  datatype Progress = Progress(name: string, barcode: string, count: nat)

  /** Everything the loop changes: the session, the requests sent, both
      error lists, the files written (path -> contents), the counter, the
      progress messages and the sleeps (in seconds). */
  datatype Run = Run(
    session: Session,
    requests: seq<Request>,
    barcodeErrors: seq<BarcodeError>,
    fastaErrors: seq<FastaError>,
    files: map<string, FileContent>,
    count: nat,
    progress: seq<Progress>,
    sleeps: seq<int>)

  /** Why a run stopped early: a failed login, or an exception other than
      an HTTP error while reading the lookup answer or fetching the FASTA
      file. */
  datatype AbortReason =
    | AuthAborted(failure: AuthFailure)
    | LookupCrashed(name: string)
    | NoAssembly(name: string)
    | DownloadCrashed(name: string)

  /** An early stop keeps the files already written and the progress
      already reported; the error lists are lost (never written). */
  datatype Aborted = Aborted(reason: AbortReason, files: map<string, FileContent>, count: nat)

  /** Where a FASTA file is written: `<outdir><name>.fna`, or
      `<outdir><name>__<barcode>.fna` when the barcode is appended. */
  function FastaName(s: Settings, e: Entry): (path: string)
    ensures path == s.outdir + (if s.appendBarcode then e.name + "__" + e.barcode else e.name) + ".fna"
  {
    if s.appendBarcode then
      assert Text.Join([e.name, e.barcode], "__") == e.name + "__" + Text.Join([e.barcode], "__");
      s.outdir + Text.Join([e.name, e.barcode], "__") + ".fna"
    else s.outdir + e.name + ".fna"
  }

  /** Reference classification of an entry's fate from the network's answers. */
  datatype Outcome = LookupError | DownloadError | Saved | Crash

  function Classify(x: Exchange): Outcome {
    match x.lookup
    case LookupHttpError(_, _) => LookupError
    case LookupUnreadable => Crash
    case LookupOk(links) =>
      if |links| == 0 then Crash
      else
        match x.download
        case Served(code, _) => if code == 200 then Saved else DownloadError
        case DownloadHttpError(_, _) => DownloadError
        case DownloadUnreachable => Crash
  }

  /** The barcode-error record a failed lookup of `e` calls for. */
  function LookupRecord(s: Settings, e: Entry, x: Exchange): BarcodeError
    requires Classify(x) == LookupError
  {
    BarcodeError(e.name, e.barcode, LookupUrl(s.db, e.barcode), "Reason: " + x.lookup.body + ", " + x.lookup.msg)
  }

  /** The fasta-error record a failed download of `e` calls for: the status
      code when the server answered, the error text when it raised. */
  function DownloadRecord(e: Entry, x: Exchange): FastaError
    requires Classify(x) == DownloadError
  {
    if x.download.Served? then BadStatus(e.name, e.barcode, x.lookup.links[0], x.download.code)
    else DownloadFailed(e.name, e.barcode, x.lookup.links[0],
                        "Failed download as " + x.download.errorBody + ", " + x.download.msg)
  }

  /** What one entry does, apart from the bookkeeping every entry shares:
      the session after its requests, the requests it sent (lookup first),
      the error record it appended, if any, and the FASTA octets it saved,
      if any. */
  datatype Effect = Effect(
    session: Session,
    requests: seq<Request>,
    barcodeError: Option<BarcodeError>,
    fastaError: Option<FastaError>,
    saved: Option<seq<Base64.uint8>>)

  /** One iteration of the loop body, up to the counter: the lookup, then
      the download of the first listed assembly. Only HTTP errors are
      caught; a failed login, an unreadable lookup answer, an empty
      assembly list or a download that fails without an HTTP error ends
      the run. */
  function ProcessEntry(s: Settings, login: LoginResponse, session: Session, e: Entry, x: Exchange)
    : (r: Result<Effect, AbortReason>)
    ensures r.Failure? <==> (session.token.None? && !login.LoginOk?) || Classify(x) == Crash
    ensures r.Failure? ==>
      if session.token.None? && !login.LoginOk? then r.error == AuthAborted(GetApiToken(session, login).error)
      else r.error == (if x.lookup.LookupUnreadable? then LookupCrashed(e.name)
                       else if |x.lookup.links| == 0 then NoAssembly(e.name)
                       else DownloadCrashed(e.name))
    ensures r.Success? ==>
      && r.value.session.token.Some?
      && (session.token.None? ==> r.value.session.token == Some(login.token))
      && r.value.session.logins == session.logins + (if session.token.None? then 1 else 0)
      && (session.token.Some? ==> r.value.session == session)
    // a failed lookup: one barcode-error record, no download request, no file
    ensures r.Success? && Classify(x) == LookupError ==>
      && r.value.requests == [Request(LookupUrl(s.db, e.barcode), Header(r.value.session.token.value))]
      && r.value.barcodeError == Some(LookupRecord(s, e, x))
      && r.value.fastaError.None?
      && r.value.saved.None?
    // a failed download of the first link: one fasta-error record, no file
    ensures r.Success? && Classify(x) == DownloadError ==>
      && r.value.requests == [Request(LookupUrl(s.db, e.barcode), Header(r.value.session.token.value)),
                              Request(x.lookup.links[0], Header(r.value.session.token.value))]
      && r.value.barcodeError.None?
      && r.value.fastaError == Some(DownloadRecord(e, x))
      && r.value.saved.None?
    // status 200: the body is saved, and no record
    ensures r.Success? && Classify(x) == Saved ==>
      && r.value.requests == [Request(LookupUrl(s.db, e.barcode), Header(r.value.session.token.value)),
                              Request(x.lookup.links[0], Header(r.value.session.token.value))]
      && r.value.barcodeError.None?
      && r.value.fastaError.None?
      && r.value.saved == Some(x.download.body)
  {
    var lookupUrl := LookupUrl(s.db, e.barcode);
    match CreateRequest(session, login, lookupUrl)
    case Failure(f) => Failure(AuthAborted(f))
    case Success((session', lookupRequest)) =>
      match x.lookup
      case LookupHttpError(msg, body) =>
        var record := BarcodeError(e.name, e.barcode, lookupUrl, "Reason: " + body + ", " + msg);
        Success(Effect(session', [lookupRequest], Some(record), None, None))
      case LookupUnreadable =>
        Failure(LookupCrashed(e.name))
      case LookupOk(links) =>
        if |links| == 0 then
          Failure(NoAssembly(e.name))
        else
          var link := links[0];
          var (session'', downloadRequest) := CreateRequest(session', login, link).value;
          var requests := [lookupRequest, downloadRequest];
          match x.download
          case Served(code, body) =>
            if code == 200 then
              Success(Effect(session'', requests, None, None, Some(body)))
            else
              Success(Effect(session'', requests, None, Some(BadStatus(e.name, e.barcode, link, code)), None))
          case DownloadHttpError(msg, body) =>
            var record := DownloadFailed(e.name, e.barcode, link, "Failed download as " + body + ", " + msg);
            Success(Effect(session'', requests, None, Some(record), None))
          case DownloadUnreachable =>
            Failure(DownloadCrashed(e.name))
  }

  /** The list holding the value of `o`, if any. */
  function Listed<T>(o: Option<T>): (r: seq<T>)
    ensures |r| == (if o.Some? then 1 else 0)
    ensures o.Some? ==> r == [o.value]
  {
    if o.Some? then [o.value] else []
  }

  /** The run after a completed entry: its effect, then the counter, the
      progress message and the sleep that follow every entry. */
  function Apply(s: Settings, run: Run, e: Entry, eff: Effect): Run {
    Run(eff.session,
        run.requests + eff.requests,
        run.barcodeErrors + Listed(eff.barcodeError),
        run.fastaErrors + Listed(eff.fastaError),
        if eff.saved.Some? then run.files[FastaName(s, e) := Fasta(eff.saved.value)] else run.files,
        run.count + 1,
        run.progress + [Progress(e.name, e.barcode, run.count + 1)],
        run.sleeps + [s.interval])
  }

  /** No entry of `xs` makes the run crash. */
  predicate NoCrash(xs: seq<Exchange>) {
    forall i :: 0 <= i < |xs| ==> Classify(xs[i]) != Crash
  }

  lemma {:induction false} NoCrashCons(xs: seq<Exchange>)
    requires |xs| > 0
    ensures NoCrash(xs) <==> Classify(xs[0]) != Crash && NoCrash(xs[1..])
  {
    assert forall i :: 1 <= i < |xs| ==> xs[1..][i - 1] == xs[i];
  }

  /** The loop over the registry, in order. An early stop keeps the files
      written so far and the count reached. */
  function Loop(s: Settings, login: LoginResponse, run: Run, entries: seq<Entry>, xs: seq<Exchange>)
    : (r: Result<Run, Aborted>)
    requires |entries| == |xs|
    ensures r.Success? <==> |xs| == 0 || ((run.session.token.Some? || login.LoginOk?) && NoCrash(xs))
    ensures r.Failure? ==> run.count <= r.error.count < run.count + |entries|
    ensures r.Success? ==>
      && r.value.count == run.count + |entries|
      && run.barcodeErrors <= r.value.barcodeErrors
      && run.fastaErrors <= r.value.fastaErrors
      && run.requests <= r.value.requests
      && r.value.session.logins <= run.session.logins + 1
      && (run.session.token.Some? ==> r.value.session == run.session)
      && (|entries| > 0 ==> r.value.session.token.Some?)
      && (|entries| > 0 && run.session.token.None? ==> r.value.session.token == Some(login.token))
    // a login that fails stops the run at the first entry, before anything is counted or written
    ensures |entries| > 0 && run.session.token.None? && !login.LoginOk? ==>
      r == Failure(Aborted(AuthAborted(GetApiToken(run.session, login).error), run.files, run.count))
    decreases |entries|
  {
    if |entries| == 0 then Success(run)
    else
      match ProcessEntry(s, login, run.session, entries[0], xs[0])
      case Failure(reason) => Failure(Aborted(reason, run.files, run.count))
      case Success(eff) =>
        NoCrashCons(xs);
        Loop(s, login, Apply(s, run, entries[0], eff), entries[1..], xs[1..])
  }

  // ---------------------------------------------------------------------
  // The loop as a replay of per-entry effects

  /** The effect the answers `x` call for: a token is held, every request
      carries it, and the number of requests, the kind of record and the
      file follow the outcome (`RecordsFit` states the records' contents). */
  predicate Fits(s: Settings, e: Entry, x: Exchange, eff: Effect) {
    && eff.session.token.Some?
    && (forall j :: 0 <= j < |eff.requests| ==> eff.requests[j].authorization == Header(eff.session.token.value))
    && match Classify(x)
       case LookupError =>
         |eff.requests| == 1 && eff.barcodeError.Some? && eff.fastaError.None? && eff.saved.None?
       case DownloadError =>
         |eff.requests| == 2 && eff.barcodeError.None? && eff.fastaError.Some? && eff.saved.None?
       case Saved =>
         |eff.requests| == 2 && eff.barcodeError.None? && eff.fastaError.None? && eff.saved == Some(x.download.body)
       case Crash => false
  }

  /** Each effect of `effs` fits the answers of its entry. */
  predicate AllFit(s: Settings, entries: seq<Entry>, xs: seq<Exchange>, effs: seq<Effect>)
    requires |entries| == |xs| == |effs|
    decreases |entries|
  {
    |entries| == 0 || (Fits(s, entries[0], xs[0], effs[0]) && AllFit(s, entries[1..], xs[1..], effs[1..]))
  }

  /** The effects of the entries completed before the loop stops, the
      session threaded from each entry to the next. */
  function Effects(s: Settings, login: LoginResponse, session: Session, entries: seq<Entry>, xs: seq<Exchange>)
    : (effs: seq<Effect>)
    requires |entries| == |xs|
    ensures |effs| <= |entries|
    decreases |entries|
  {
    if |entries| == 0 then []
    else
      match ProcessEntry(s, login, session, entries[0], xs[0])
      case Failure(_) => []
      case Success(eff) => [eff] + Effects(s, login, eff.session, entries[1..], xs[1..])
  }

  /** A completed entry's effect fits its answers. */
  lemma {:induction false} StepFits(s: Settings, login: LoginResponse, session: Session, e: Entry, x: Exchange)
    requires ProcessEntry(s, login, session, e, x).Success?
    ensures Fits(s, e, x, ProcessEntry(s, login, session, e, x).value)
  {
  }

  /** A completed entry holds a token afterwards, the one it started with
      if it had one. */
  lemma {:induction false} StepSession(s: Settings, login: LoginResponse, session: Session, e: Entry, x: Exchange)
    requires ProcessEntry(s, login, session, e, x).Success?
    ensures ProcessEntry(s, login, session, e, x).value.session.token.Some?
    ensures session.token.Some? ==> ProcessEntry(s, login, session, e, x).value.session == session
  {
  }

  /** Each effect fits its answers. */
  lemma {:induction false} EffectsFit(s: Settings, login: LoginResponse, session: Session, entries: seq<Entry>, xs: seq<Exchange>)
    requires |entries| == |xs|
    requires |Effects(s, login, session, entries, xs)| == |entries|
    ensures AllFit(s, entries, xs, Effects(s, login, session, entries, xs))
    decreases |entries|
  {
    if |entries| > 0 {
      var eff := ProcessEntry(s, login, session, entries[0], xs[0]).value;
      var rest := Effects(s, login, eff.session, entries[1..], xs[1..]);
      EffectsFit(s, login, eff.session, entries[1..], xs[1..]);
      StepFits(s, login, session, entries[0], xs[0]);
      assert ([eff] + rest)[1..] == rest;
    }
  }

  /** Once a token is held, every effect keeps the session as it is. */
  lemma {:induction false} EffectsKeep(s: Settings, login: LoginResponse, session: Session, entries: seq<Entry>, xs: seq<Exchange>)
    requires |entries| == |xs|
    requires session.token.Some?
    ensures forall i :: 0 <= i < |Effects(s, login, session, entries, xs)| ==>
      Effects(s, login, session, entries, xs)[i].session == session
    decreases |entries|
  {
    if |entries| > 0 && ProcessEntry(s, login, session, entries[0], xs[0]).Success? {
      var eff := ProcessEntry(s, login, session, entries[0], xs[0]).value;
      StepSession(s, login, session, entries[0], xs[0]);
      EffectsKeep(s, login, session, entries[1..], xs[1..]);
      var rest := Effects(s, login, session, entries[1..], xs[1..]);
      assert forall i :: 0 < i <= |rest| ==> ([eff] + rest)[i] == rest[i - 1];
    }
  }

  /** All effects share the first one's session. */
  lemma {:induction false} EffectsSession(s: Settings, login: LoginResponse, session: Session, entries: seq<Entry>, xs: seq<Exchange>)
    requires |entries| == |xs|
    ensures forall i :: 0 <= i < |Effects(s, login, session, entries, xs)| ==>
      Effects(s, login, session, entries, xs)[i].session == Effects(s, login, session, entries, xs)[0].session
  {
    if |entries| > 0 && ProcessEntry(s, login, session, entries[0], xs[0]).Success? {
      var eff := ProcessEntry(s, login, session, entries[0], xs[0]).value;
      StepSession(s, login, session, entries[0], xs[0]);
      EffectsKeep(s, login, eff.session, entries[1..], xs[1..]);
      var rest := Effects(s, login, eff.session, entries[1..], xs[1..]);
      assert forall i :: 0 < i <= |rest| ==> ([eff] + rest)[i] == rest[i - 1];
    }
  }

  /** The effects applied in turn, from `run`. */
  function Replay(s: Settings, run: Run, entries: seq<Entry>, effs: seq<Effect>): Run
    requires |entries| == |effs|
    decreases |entries|
  {
    if |entries| == 0 then run
    else Replay(s, Apply(s, run, entries[0], effs[0]), entries[1..], effs[1..])
  }

  /** A completed loop is the replay of its effects. */
  lemma {:induction false} LoopReplay(s: Settings, login: LoginResponse, run: Run, entries: seq<Entry>, xs: seq<Exchange>)
    requires |entries| == |xs|
    requires Loop(s, login, run, entries, xs).Success?
    ensures |Effects(s, login, run.session, entries, xs)| == |entries|
    ensures Loop(s, login, run, entries, xs).value
         == Replay(s, run, entries, Effects(s, login, run.session, entries, xs))
    decreases |entries|
  {
    if |entries| > 0 {
      var eff := ProcessEntry(s, login, run.session, entries[0], xs[0]).value;
      LoopReplay(s, login, Apply(s, run, entries[0], eff), entries[1..], xs[1..]);
    }
  }

  /** `a` is what stopping at entry `k` looks like, `k` being the count
      `a` reached less the starting count: the entries before `k`
      complete, `a` keeps exactly the files the loop over them wrote, and
      entry `k` itself fails for the reason `a` names. */
  ghost predicate StoppedAt(s: Settings, login: LoginResponse, run: Run, entries: seq<Entry>, xs: seq<Exchange>, a: Aborted)
    requires |entries| == |xs|
  {
    var k := a.count - run.count;
    && 0 <= k < |entries|
    && var prefix := Loop(s, login, run, entries[..k], xs[..k]);
    && prefix.Success?
    && a.files == prefix.value.files
    && ProcessEntry(s, login, prefix.value.session, entries[k], xs[k]) == Failure(a.reason)
  }

  /** An aborted loop stopped at entry `k`, the count it reached less the
      starting count: the entries before `k` completed, and the abort keeps
      exactly the files the loop over those entries wrote; entry `k` itself
      failed, for the reason the abort names. */
  lemma {:induction false} LoopAborted(s: Settings, login: LoginResponse, run: Run, entries: seq<Entry>, xs: seq<Exchange>)
    requires |entries| == |xs|
    requires Loop(s, login, run, entries, xs).Failure?
    ensures var a := Loop(s, login, run, entries, xs).error;
      var k := a.count - run.count;
      && 0 <= k < |entries|
      && var prefix := Loop(s, login, run, entries[..k], xs[..k]);
      && prefix.Success?
      && a.files == prefix.value.files
      && ProcessEntry(s, login, prefix.value.session, entries[k], xs[k]) == Failure(a.reason)
  {
    LoopStopsAt(s, login, run, entries, xs);
    StoppedAtMeans(s, login, run, entries, xs, Loop(s, login, run, entries, xs).error);
  }

  /** `StoppedAt`, spelled out. */
  lemma {:induction false} StoppedAtMeans(s: Settings, login: LoginResponse, run: Run, entries: seq<Entry>,
                                          xs: seq<Exchange>, a: Aborted)
    requires |entries| == |xs|
    requires StoppedAt(s, login, run, entries, xs, a)
    ensures var k := a.count - run.count;
      && 0 <= k < |entries|
      && var prefix := Loop(s, login, run, entries[..k], xs[..k]);
      && prefix.Success?
      && a.files == prefix.value.files
      && ProcessEntry(s, login, prefix.value.session, entries[k], xs[k]) == Failure(a.reason)
  {
  }

  /** The induction behind `LoopAborted`, stated through `StoppedAt`. */
  lemma {:induction false} LoopStopsAt(s: Settings, login: LoginResponse, run: Run, entries: seq<Entry>, xs: seq<Exchange>)
    requires |entries| == |xs|
    requires Loop(s, login, run, entries, xs).Failure?
    ensures StoppedAt(s, login, run, entries, xs, Loop(s, login, run, entries, xs).error)
    decreases |entries|
  {
    if ProcessEntry(s, login, run.session, entries[0], xs[0]).Success? {
      var next := Apply(s, run, entries[0], ProcessEntry(s, login, run.session, entries[0], xs[0]).value);
      LoopStep(s, login, run, entries, xs);
      LoopStopsAt(s, login, next, entries[1..], xs[1..]);
      StoppedLater(s, login, run, entries, xs, Loop(s, login, next, entries[1..], xs[1..]).error);
    } else {
      LoopStop(s, login, run, entries, xs);
    }
  }

  /** Stopping at entry `k` after the first entry completed is stopping at
      entry `k + 1` of the whole registry. */
  lemma {:induction false} StoppedLater(s: Settings, login: LoginResponse, run: Run, entries: seq<Entry>,
                                        xs: seq<Exchange>, a: Aborted)
    requires |entries| == |xs| > 0
    requires ProcessEntry(s, login, run.session, entries[0], xs[0]).Success?
    requires StoppedAt(s, login, Apply(s, run, entries[0], ProcessEntry(s, login, run.session, entries[0], xs[0]).value),
                       entries[1..], xs[1..], a)
    ensures StoppedAt(s, login, run, entries, xs, a)
  {
    var next := Apply(s, run, entries[0], ProcessEntry(s, login, run.session, entries[0], xs[0]).value);
    var j := a.count - next.count;
    var prefix := Loop(s, login, next, entries[1..][..j], xs[1..][..j]);
    assert prefix.Success? && a.files == prefix.value.files;
    assert ProcessEntry(s, login, prefix.value.session, entries[1..][j], xs[1..][j]) == Failure(a.reason);
    LoopPrefixStep(s, login, run, entries, xs, j);
    assert a.count - run.count == j + 1;
  }

  /** The loop over the first `j + 1` entries, once the first has
      completed, is the loop over the next `j` from the run that entry left. */
  lemma {:induction false} LoopPrefixStep(s: Settings, login: LoginResponse, run: Run, entries: seq<Entry>,
                                          xs: seq<Exchange>, j: nat)
    requires |entries| == |xs| && j + 1 < |entries|
    requires ProcessEntry(s, login, run.session, entries[0], xs[0]).Success?
    ensures Loop(s, login, run, entries[..j + 1], xs[..j + 1])
         == Loop(s, login, Apply(s, run, entries[0], ProcessEntry(s, login, run.session, entries[0], xs[0]).value),
                 entries[1..][..j], xs[1..][..j])
    ensures entries[1..][j] == entries[j + 1] && xs[1..][j] == xs[j + 1]
  {
    assert entries[..j + 1][0] == entries[0] && xs[..j + 1][0] == xs[0];
    assert entries[..j + 1][1..] == entries[1..][..j] && xs[..j + 1][1..] == xs[1..][..j];
    LoopStep(s, login, run, entries[..j + 1], xs[..j + 1]);
  }

  /** A failing first entry stops the loop before anything is counted,
      which is where the loop over no entries stops. */
  lemma {:induction false} LoopStop(s: Settings, login: LoginResponse, run: Run, entries: seq<Entry>, xs: seq<Exchange>)
    requires |entries| == |xs| > 0
    requires ProcessEntry(s, login, run.session, entries[0], xs[0]).Failure?
    ensures Loop(s, login, run, entries, xs)
         == Failure(Aborted(ProcessEntry(s, login, run.session, entries[0], xs[0]).error, run.files, run.count))
    ensures Loop(s, login, run, entries[..0], xs[..0]) == Success(run)
  {
    assert entries[..0] == [] && xs[..0] == [];
  }

  /** A completed first entry hands the rest of the registry to the loop. */
  lemma {:induction false} LoopStep(s: Settings, login: LoginResponse, run: Run, entries: seq<Entry>, xs: seq<Exchange>)
    requires |entries| == |xs| > 0
    requires ProcessEntry(s, login, run.session, entries[0], xs[0]).Success?
    ensures Loop(s, login, run, entries, xs)
         == Loop(s, login, Apply(s, run, entries[0], ProcessEntry(s, login, run.session, entries[0], xs[0]).value),
                 entries[1..], xs[1..])
  {
  }

  /** Replaying reports every entry once, with the running count, in order. */
  lemma {:induction false} ReplayProgress(s: Settings, run: Run, entries: seq<Entry>, effs: seq<Effect>)
    requires |entries| == |effs|
    ensures var r := Replay(s, run, entries, effs);
      && r.count == run.count + |entries|
      && |r.progress| == |run.progress| + |entries|
      && run.progress <= r.progress
      && forall i :: |run.progress| <= i < |r.progress| ==>
           r.progress[i] == Progress(entries[i - |run.progress|].name, entries[i - |run.progress|].barcode,
                                     run.count + 1 + i - |run.progress|)
    decreases |entries|
  {
    if |entries| > 0 {
      var next := Apply(s, run, entries[0], effs[0]);
      ReplayProgress(s, next, entries[1..], effs[1..]);
    }
  }

  /** Replaying sleeps once per entry, for the configured interval. */
  lemma {:induction false} ReplaySleeps(s: Settings, run: Run, entries: seq<Entry>, effs: seq<Effect>)
    requires |entries| == |effs|
    ensures var r := Replay(s, run, entries, effs);
      && |r.sleeps| == |run.sleeps| + |entries|
      && run.sleeps <= r.sleeps
      && forall i :: |run.sleeps| <= i < |r.sleeps| ==> r.sleeps[i] == s.interval
    decreases |entries|
  {
    if |entries| > 0 {
      ReplaySleeps(s, Apply(s, run, entries[0], effs[0]), entries[1..], effs[1..]);
    }
  }

  /** How many entries of `xs` end with outcome `o`. */
  function CountOutcome(xs: seq<Exchange>, o: Outcome): nat
    decreases |xs|
  {
    if |xs| == 0 then 0 else (if Classify(xs[0]) == o then 1 else 0) + CountOutcome(xs[1..], o)
  }

  /** The barcode-error record entry `e` appends: one for a failed lookup. */
  function PlannedBarcodeError(s: Settings, e: Entry, x: Exchange): seq<BarcodeError> {
    if Classify(x) == LookupError then [LookupRecord(s, e, x)] else []
  }

  /** The fasta-error record entry `e` appends: one for a failed download. */
  function PlannedFastaError(e: Entry, x: Exchange): seq<FastaError> {
    if Classify(x) == DownloadError then [DownloadRecord(e, x)] else []
  }

  /** Each effect of `effs` lists the records its entry's answers call for. */
  predicate RecordsFit(s: Settings, entries: seq<Entry>, xs: seq<Exchange>, effs: seq<Effect>)
    requires |entries| == |xs| == |effs|
    decreases |entries|
  {
    || |entries| == 0
    || (&& Listed(effs[0].barcodeError) == PlannedBarcodeError(s, entries[0], xs[0])
        && Listed(effs[0].fastaError) == PlannedFastaError(entries[0], xs[0])
        && RecordsFit(s, entries[1..], xs[1..], effs[1..]))
  }

  /** A completed entry lists the records its answers call for. */
  lemma {:induction false} StepRecords(s: Settings, login: LoginResponse, session: Session, e: Entry, x: Exchange)
    requires ProcessEntry(s, login, session, e, x).Success?
    ensures Listed(ProcessEntry(s, login, session, e, x).value.barcodeError) == PlannedBarcodeError(s, e, x)
    ensures Listed(ProcessEntry(s, login, session, e, x).value.fastaError) == PlannedFastaError(e, x)
  {
  }

  /** The effects of a completed loop list the records the answers call for. */
  lemma {:induction false} EffectsRecords(s: Settings, login: LoginResponse, session: Session, entries: seq<Entry>, xs: seq<Exchange>)
    requires |entries| == |xs|
    requires |Effects(s, login, session, entries, xs)| == |entries|
    ensures RecordsFit(s, entries, xs, Effects(s, login, session, entries, xs))
    decreases |entries|
  {
    if |entries| > 0 {
      var eff := ProcessEntry(s, login, session, entries[0], xs[0]).value;
      var rest := Effects(s, login, eff.session, entries[1..], xs[1..]);
      EffectsRecords(s, login, eff.session, entries[1..], xs[1..]);
      StepRecords(s, login, session, entries[0], xs[0]);
      assert ([eff] + rest)[1..] == rest;
    }
  }

  /** The barcode-error records the failed lookups among `xs` call for, in
      registry order. */
  function ExpectedBarcodeErrors(s: Settings, entries: seq<Entry>, xs: seq<Exchange>): seq<BarcodeError>
    requires |entries| == |xs|
    decreases |entries|
  {
    if |entries| == 0 then []
    else PlannedBarcodeError(s, entries[0], xs[0]) + ExpectedBarcodeErrors(s, entries[1..], xs[1..])
  }

  /** The fasta-error records the failed downloads among `xs` call for, in
      registry order. */
  function ExpectedFastaErrors(entries: seq<Entry>, xs: seq<Exchange>): seq<FastaError>
    requires |entries| == |xs|
    decreases |entries|
  {
    if |entries| == 0 then []
    else PlannedFastaError(entries[0], xs[0]) + ExpectedFastaErrors(entries[1..], xs[1..])
  }

  /** Replaying fitting effects grows each list by its outcomes. */
  lemma {:induction false} ReplayCounts(s: Settings, run: Run, entries: seq<Entry>, effs: seq<Effect>, xs: seq<Exchange>)
    requires |entries| == |effs| == |xs|
    requires AllFit(s, entries, xs, effs)
    ensures var r := Replay(s, run, entries, effs);
      && |r.barcodeErrors| == |run.barcodeErrors| + CountOutcome(xs, LookupError)
      && |r.fastaErrors| == |run.fastaErrors| + CountOutcome(xs, DownloadError)
      && |r.requests| == |run.requests| + |xs| + CountOutcome(xs, DownloadError) + CountOutcome(xs, Saved)
      && CountOutcome(xs, LookupError) + CountOutcome(xs, DownloadError) + CountOutcome(xs, Saved) == |xs|
    decreases |entries|
  {
    if |entries| > 0 {
      assert Fits(s, entries[0], xs[0], effs[0]);
      ReplayCounts(s, Apply(s, run, entries[0], effs[0]), entries[1..], effs[1..], xs[1..]);
    }
  }

  /** Replaying effects that list the records their answers call for
      appends exactly those barcode-error records, in order. */
  lemma {:induction false} ReplayBarcodeErrors(s: Settings, run: Run, entries: seq<Entry>, effs: seq<Effect>, xs: seq<Exchange>)
    requires |entries| == |effs| == |xs|
    requires RecordsFit(s, entries, xs, effs)
    ensures Replay(s, run, entries, effs).barcodeErrors == run.barcodeErrors + ExpectedBarcodeErrors(s, entries, xs)
    decreases |entries|
  {
    if |entries| > 0 {
      var next := Apply(s, run, entries[0], effs[0]);
      ReplayBarcodeErrors(s, next, entries[1..], effs[1..], xs[1..]);
      var head, rest := Listed(effs[0].barcodeError), ExpectedBarcodeErrors(s, entries[1..], xs[1..]);
      assert ExpectedBarcodeErrors(s, entries, xs) == head + rest;
      assert run.barcodeErrors + head + rest == run.barcodeErrors + (head + rest);
    }
  }

  /** Replaying effects that list the records their answers call for
      appends exactly those fasta-error records, in order. */
  lemma {:induction false} ReplayFastaErrors(s: Settings, run: Run, entries: seq<Entry>, effs: seq<Effect>, xs: seq<Exchange>)
    requires |entries| == |effs| == |xs|
    requires RecordsFit(s, entries, xs, effs)
    ensures Replay(s, run, entries, effs).fastaErrors == run.fastaErrors + ExpectedFastaErrors(entries, xs)
    decreases |entries|
  {
    if |entries| > 0 {
      var next := Apply(s, run, entries[0], effs[0]);
      ReplayFastaErrors(s, next, entries[1..], effs[1..], xs[1..]);
      var head, rest := Listed(effs[0].fastaError), ExpectedFastaErrors(entries[1..], xs[1..]);
      assert ExpectedFastaErrors(entries, xs) == head + rest;
      assert run.fastaErrors + head + rest == run.fastaErrors + (head + rest);
    }
  }

  /** The FASTA paths written by the entries of `entries` that end in `Saved`. */
  function SavedPaths(s: Settings, entries: seq<Entry>, xs: seq<Exchange>): set<string>
    requires |entries| == |xs|
    decreases |entries|
  {
    if |entries| == 0 then {}
    else (if Classify(xs[0]) == Saved then {FastaName(s, entries[0])} else {})
         + SavedPaths(s, entries[1..], xs[1..])
  }

  /** The octets the last saved entry written to path `p` downloaded, if
      any saved entry writes there: a later download overwrites an earlier
      file of the same name. */
  function SavedBody(s: Settings, entries: seq<Entry>, xs: seq<Exchange>, p: string): Option<seq<Base64.uint8>>
    requires |entries| == |xs|
    decreases |entries|
  {
    if |entries| == 0 then None
    else
      match SavedBody(s, entries[1..], xs[1..], p)
      case Some(body) => Some(body)
      case None =>
        if Classify(xs[0]) == Saved && FastaName(s, entries[0]) == p then Some(xs[0].download.body) else None
  }

  /** Replaying fitting effects writes exactly the files of the saved
      entries, each holding the octets its last download saved, and leaves
      every other file as it was. */
  lemma {:induction false} ReplayFiles(s: Settings, run: Run, entries: seq<Entry>, effs: seq<Effect>, xs: seq<Exchange>)
    requires |entries| == |effs| == |xs|
    requires AllFit(s, entries, xs, effs)
    ensures var r := Replay(s, run, entries, effs);
      && r.files.Keys == run.files.Keys + SavedPaths(s, entries, xs)
      && (forall p :: SavedBody(s, entries, xs, p).Some? ==>
            p in r.files && r.files[p] == Fasta(SavedBody(s, entries, xs, p).value))
      && (forall p :: p in r.files && SavedBody(s, entries, xs, p).None? ==>
            p in run.files && r.files[p] == run.files[p])
    decreases |entries|
  {
    if |entries| > 0 {
      var next := Apply(s, run, entries[0], effs[0]);
      ReplayFiles(s, next, entries[1..], effs[1..], xs[1..]);
    }
  }

  /** No saved entry writes to a path that no entry names. */
  lemma {:induction false} SavedBodyAbsent(s: Settings, entries: seq<Entry>, xs: seq<Exchange>, p: string)
    requires |entries| == |xs|
    requires forall j :: 0 <= j < |entries| ==> FastaName(s, entries[j]) != p
    ensures SavedBody(s, entries, xs, p).None?
    decreases |entries|
  {
    if |entries| > 0 {
      assert forall j :: 0 <= j < |entries| - 1 ==> entries[1..][j] == entries[j + 1];
      SavedBodyAbsent(s, entries[1..], xs[1..], p);
    }
  }

  /** Without the appended barcode and with unique names, each saved entry's
      path holds its own download. */
  lemma {:induction false} SavedBodyAt(s: Settings, entries: seq<Entry>, xs: seq<Exchange>, i: nat)
    requires |entries| == |xs| && i < |entries|
    requires !s.appendBarcode && UniqueNames(entries)
    requires Classify(xs[i]) == Saved
    ensures SavedBody(s, entries, xs, FastaName(s, entries[i])) == Some(xs[i].download.body)
    decreases |entries|
  {
    var rest, p := entries[1..], FastaName(s, entries[i]);
    assert forall j :: 0 <= j < |rest| ==> rest[j] == entries[j + 1];
    if i == 0 {
      forall j | 0 <= j < |rest| ensures FastaName(s, rest[j]) != p {
        FastaNamesDistinct(s, rest[j], entries[0]);
      }
      SavedBodyAbsent(s, rest, xs[1..], p);
    } else {
      assert UniqueNames(rest);
      SavedBodyAt(s, rest, xs[1..], i - 1);
    }
  }

  /** No saved path is one of the two log names. */
  lemma {:induction false} SavedPathsAvoidLogs(s: Settings, entries: seq<Entry>, xs: seq<Exchange>,
                                               barcodeStamp: string, fastaStamp: string)
    requires |entries| == |xs|
    ensures LogName(s.outdir, BarcodeLogBase, barcodeStamp) !in SavedPaths(s, entries, xs)
    ensures LogName(s.outdir, FastaLogBase, fastaStamp) !in SavedPaths(s, entries, xs)
    decreases |entries|
  {
    if |entries| > 0 {
      LogNamesDistinct(s, barcodeStamp, fastaStamp, entries[0]);
      SavedPathsAvoidLogs(s, entries[1..], xs[1..], barcodeStamp, fastaStamp);
    }
  }

  /** Replaying fitting effects that share one session ends in that session,
      and every request sent carries its token. */
  lemma {:induction false} ReplayHeaders(s: Settings, run: Run, entries: seq<Entry>, effs: seq<Effect>, xs: seq<Exchange>)
    requires |entries| == |effs| == |xs| > 0
    requires effs[0].session.token.Some?
    requires AllFit(s, entries, xs, effs)
    requires forall i :: 0 <= i < |effs| ==> effs[i].session == effs[0].session
    ensures var r := Replay(s, run, entries, effs);
      && r.session == effs[0].session
      && run.requests <= r.requests
      && forall i :: |run.requests| <= i < |r.requests| ==>
           r.requests[i].authorization == Header(effs[0].session.token.value)
    decreases |entries|
  {
    var next := Apply(s, run, entries[0], effs[0]);
    assert Fits(s, entries[0], xs[0], effs[0]);
    if |entries| > 1 {
      assert forall i :: 0 <= i < |effs| - 1 ==> effs[1..][i] == effs[i + 1];
      ReplayHeaders(s, next, entries[1..], effs[1..], xs[1..]);
    }
  }

  // ---------------------------------------------------------------------
  // What a completed loop did

  /** Over a completed loop every entry is reported once, with the running
      count, in registry order. */
  lemma {:induction false} LoopProgress(s: Settings, login: LoginResponse, run: Run, entries: seq<Entry>, xs: seq<Exchange>)
    requires |entries| == |xs|
    requires Loop(s, login, run, entries, xs).Success?
    ensures var r := Loop(s, login, run, entries, xs).value;
      && |r.progress| == |run.progress| + |entries|
      && run.progress <= r.progress
      && forall i :: |run.progress| <= i < |r.progress| ==>
           r.progress[i] == Progress(entries[i - |run.progress|].name, entries[i - |run.progress|].barcode,
                                     run.count + 1 + i - |run.progress|)
  {
    LoopReplay(s, login, run, entries, xs);
    ReplayProgress(s, run, entries, Effects(s, login, run.session, entries, xs));
  }

  /** Over a completed loop every entry is followed by one sleep of the
      configured interval, whatever its outcome. */
  lemma {:induction false} LoopSleeps(s: Settings, login: LoginResponse, run: Run, entries: seq<Entry>, xs: seq<Exchange>)
    requires |entries| == |xs|
    requires Loop(s, login, run, entries, xs).Success?
    ensures var r := Loop(s, login, run, entries, xs).value;
      && |r.sleeps| == |run.sleeps| + |entries|
      && run.sleeps <= r.sleeps
      && forall i :: |run.sleeps| <= i < |r.sleeps| ==> r.sleeps[i] == s.interval
  {
    LoopReplay(s, login, run, entries, xs);
    ReplaySleeps(s, run, entries, Effects(s, login, run.session, entries, xs));
  }

  /** Over a completed loop every request sent carries the header built
      from the one token the session holds. */
  lemma {:induction false} LoopHeaders(s: Settings, login: LoginResponse, run: Run, entries: seq<Entry>, xs: seq<Exchange>)
    requires |entries| == |xs| && |entries| > 0
    requires Loop(s, login, run, entries, xs).Success?
    ensures var r := Loop(s, login, run, entries, xs).value;
      forall i :: |run.requests| <= i < |r.requests| ==>
        r.requests[i].authorization == Header(r.session.token.value)
  {
    LoopReplay(s, login, run, entries, xs);
    EffectsFit(s, login, run.session, entries, xs);
    EffectsSession(s, login, run.session, entries, xs);
    ReplayHeaders(s, run, entries, Effects(s, login, run.session, entries, xs), xs);
  }

  /** Over a completed loop, each entry ends in exactly one of the three
      outcomes: the barcode-error list grows by the failed lookups, the
      fasta-error list by the failed downloads, and a lookup request is
      sent for every entry plus a download request for every entry whose
      lookup found a link. */
  lemma {:induction false} LoopCounts(s: Settings, login: LoginResponse, run: Run, entries: seq<Entry>, xs: seq<Exchange>)
    requires |entries| == |xs|
    requires Loop(s, login, run, entries, xs).Success?
    ensures var r := Loop(s, login, run, entries, xs).value;
      && |r.barcodeErrors| == |run.barcodeErrors| + CountOutcome(xs, LookupError)
      && |r.fastaErrors| == |run.fastaErrors| + CountOutcome(xs, DownloadError)
      && |r.requests| == |run.requests| + |xs| + CountOutcome(xs, DownloadError) + CountOutcome(xs, Saved)
      && CountOutcome(xs, LookupError) + CountOutcome(xs, DownloadError) + CountOutcome(xs, Saved) == |xs|
  {
    LoopReplay(s, login, run, entries, xs);
    EffectsFit(s, login, run.session, entries, xs);
    ReplayCounts(s, run, entries, Effects(s, login, run.session, entries, xs), xs);
  }

  /** A completed loop appends exactly the records its failed lookups and
      failed downloads call for, in registry order. */
  lemma {:induction false} LoopRecords(s: Settings, login: LoginResponse, run: Run, entries: seq<Entry>, xs: seq<Exchange>)
    requires |entries| == |xs|
    requires Loop(s, login, run, entries, xs).Success?
    ensures var r := Loop(s, login, run, entries, xs).value;
      && r.barcodeErrors == run.barcodeErrors + ExpectedBarcodeErrors(s, entries, xs)
      && r.fastaErrors == run.fastaErrors + ExpectedFastaErrors(entries, xs)
  {
    LoopReplay(s, login, run, entries, xs);
    EffectsRecords(s, login, run.session, entries, xs);
    ReplayBarcodeErrors(s, run, entries, Effects(s, login, run.session, entries, xs), xs);
    ReplayFastaErrors(s, run, entries, Effects(s, login, run.session, entries, xs), xs);
  }

  /** A completed loop writes exactly the files of the saved entries, each
      holding the octets its last download saved, and leaves every other
      file as it was. */
  lemma {:induction false} LoopFiles(s: Settings, login: LoginResponse, run: Run, entries: seq<Entry>, xs: seq<Exchange>)
    requires |entries| == |xs|
    requires Loop(s, login, run, entries, xs).Success?
    ensures var r := Loop(s, login, run, entries, xs).value;
      && r.files.Keys == run.files.Keys + SavedPaths(s, entries, xs)
      && (forall p :: SavedBody(s, entries, xs, p).Some? ==>
            p in r.files && r.files[p] == Fasta(SavedBody(s, entries, xs, p).value))
      && (forall p :: p in r.files && SavedBody(s, entries, xs, p).None? ==>
            p in run.files && r.files[p] == run.files[p])
  {
    LoopReplay(s, login, run, entries, xs);
    EffectsFit(s, login, run.session, entries, xs);
    ReplayFiles(s, run, entries, Effects(s, login, run.session, entries, xs), xs);
  }

  /** Without the appended barcode and with unique names, a completed loop
      leaves each saved entry's file holding that entry's download. */
  lemma {:induction false} LoopFileContents(s: Settings, login: LoginResponse, run: Run, entries: seq<Entry>,
                                            xs: seq<Exchange>, i: nat)
    requires |entries| == |xs| && i < |entries|
    requires Loop(s, login, run, entries, xs).Success?
    requires !s.appendBarcode && UniqueNames(entries)
    requires Classify(xs[i]) == Saved
    ensures var r := Loop(s, login, run, entries, xs).value;
      FastaName(s, entries[i]) in r.files && r.files[FastaName(s, entries[i])] == Fasta(xs[i].download.body)
  {
    LoopFiles(s, login, run, entries, xs);
    SavedBodyAt(s, entries, xs, i);
  }

  /** Without the appended barcode, distinct names give distinct paths. */
  lemma {:induction false} FastaNamesDistinct(s: Settings, a: Entry, b: Entry)
    requires !s.appendBarcode && a.name != b.name
    ensures FastaName(s, a) != FastaName(s, b)
  {
    var pa, pb := FastaName(s, a), FastaName(s, b);
    if |a.name| == |b.name| {
      var k :| 0 <= k < |a.name| && a.name[k] != b.name[k];
      assert pa[|s.outdir| + k] == a.name[k];
      assert pb[|s.outdir| + k] == b.name[k];
    } else {
      assert |pa| != |pb|;
    }
  }

  /** With the appended barcode two different entries can share a path;
      the later download then overwrites the earlier file. */
  lemma {:induction false} AppendedNamesCanCollide(s: Settings)
    requires s.appendBarcode
    ensures FastaName(s, Entry("a__b", "c")) == FastaName(s, Entry("a", "b__c"))
  {
    assert "a__b" + "__" + "c" == "a" + "__" + "b__c";
  }

  // ---------------------------------------------------------------------
  // Error logs

  /** The fields of a barcode-error record, in log order. */
  function BarcodeFields(b: BarcodeError): seq<string> {
    [b.name, b.barcode, "Query address: " + b.queryUrl, b.reason]
  }

  /** The fields of a fasta-error record, in log order. */
  function FastaFields(f: FastaError): seq<string> {
    match f
    case BadStatus(name, barcode, url, code) => [name, barcode, url, Text.IntToDecimal(code), InvalidResponseMessage]
    case DownloadFailed(name, barcode, url, reason) => [name, barcode, url, reason]
  }

  function BarcodeRecords(bs: seq<BarcodeError>): (rs: seq<seq<string>>)
    ensures |rs| == |bs| && forall i :: 0 <= i < |bs| ==> rs[i] == BarcodeFields(bs[i])
  {
    seq(|bs|, i requires 0 <= i < |bs| => BarcodeFields(bs[i]))
  }

  function FastaRecords(fs: seq<FastaError>): (rs: seq<seq<string>>)
    ensures |rs| == |fs| && forall i :: 0 <= i < |fs| ==> rs[i] == FastaFields(fs[i])
  {
    seq(|fs|, i requires 0 <= i < |fs| => FastaFields(fs[i]))
  }

  /** A log's text: one line per record, its fields joined by tabs. */
  function LogLines(records: seq<seq<string>>): string
    decreases |records|
  {
    if |records| == 0 then "" else Text.Join(records[0], "\t") + "\n" + LogLines(records[1..])
  }

  /** Reading a log back: its lines (the text after the last newline
      dropped), each split on tabs. */
  function ReadLog(text: string): seq<seq<string>> {
    var lines := Text.Split(text, '\n');
    seq(|lines| - 1, i requires 0 <= i < |lines| - 1 => Text.Split(lines[i], '\t'))
  }

  /** Records that survive the log format: at least one field, and no
      field holds a tab or a newline. */
  predicate Loggable(records: seq<seq<string>>) {
    forall i :: 0 <= i < |records| ==>
      |records[i]| >= 1 &&
      forall j :: 0 <= j < |records[i]| ==> '\t' !in records[i][j] && '\n' !in records[i][j]
  }

  lemma {:induction false} JoinAvoids(fields: seq<string>, c: char)
    requires c != '\t'
    requires forall j :: 0 <= j < |fields| ==> c !in fields[j]
    ensures c !in Text.Join(fields, "\t")
    decreases |fields|
  {
    if |fields| > 1 {
      JoinAvoids(fields[1..], c);
    }
  }

  lemma {:induction false} LogLinesSplit(records: seq<seq<string>>)
    requires Loggable(records)
    ensures var lines := Text.Split(LogLines(records), '\n');
      && |lines| == |records| + 1
      && lines[|records|] == ""
      && forall i :: 0 <= i < |records| ==> lines[i] == Text.Join(records[i], "\t")
    decreases |records|
  {
    if |records| > 0 {
      var head := Text.Join(records[0], "\t");
      JoinAvoids(records[0], '\n');
      assert Loggable(records[1..]) by {
        forall i | 0 <= i < |records[1..]| ensures |records[1..][i]| >= 1 {
          assert records[1..][i] == records[i + 1];
        }
      }
      LogLinesSplit(records[1..]);
      assert LogLines(records) == head + "\n" + LogLines(records[1..]);
      Text.SplitFirst(head, LogLines(records[1..]), '\n');
    }
  }

  /** Log round trip: reading a log gives back its records. */
  lemma {:induction false} LogRoundTrip(records: seq<seq<string>>)
    requires Loggable(records)
    ensures ReadLog(LogLines(records)) == records
  {
    LogLinesSplit(records);
    var lines := Text.Split(LogLines(records), '\n');
    forall i | 0 <= i < |records|
      ensures Text.Split(lines[i], '\t') == records[i]
    {
      Text.SplitJoin(records[i], '\t');
    }
  }

  /** `<outdir><base><timestamp>.log`. */
  function LogName(outdir: string, base: string, stamp: string): string {
    outdir + base + stamp + ".log"
  }

  const BarcodeLogBase: string := "barcode_errors"
  const FastaLogBase: string := "fasta_errors"

  /** `__write_error_messages`: one log file holding the given records. */
  function WriteErrorMessages(files: map<string, FileContent>, outdir: string,
                              records: seq<seq<string>>, base: string, stamp: string)
    : (r: map<string, FileContent>)
    ensures r.Keys == files.Keys + {LogName(outdir, base, stamp)}
    ensures r[LogName(outdir, base, stamp)] == LogText(LogLines(records))
    ensures forall k :: k in files && k != LogName(outdir, base, stamp) ==> r[k] == files[k]
  {
    files[LogName(outdir, base, stamp) := LogText(LogLines(records))]
  }

  /** The two log names never coincide, whatever the two time stamps. */
  lemma {:induction false} LogNamesDiffer(outdir: string, stamp1: string, stamp2: string)
    ensures LogName(outdir, BarcodeLogBase, stamp1) != LogName(outdir, FastaLogBase, stamp2)
  {
    var b, f := LogName(outdir, BarcodeLogBase, stamp1), LogName(outdir, FastaLogBase, stamp2);
    assert b[|outdir|] == 'b' && f[|outdir|] == 'f';
  }

  /** No log name is a FASTA path. */
  lemma {:induction false} LogNamesDistinct(s: Settings, stamp1: string, stamp2: string, e: Entry)
    ensures LogName(s.outdir, BarcodeLogBase, stamp1) != FastaName(s, e)
    ensures LogName(s.outdir, FastaLogBase, stamp2) != FastaName(s, e)
  {
    var b, f := LogName(s.outdir, BarcodeLogBase, stamp1), LogName(s.outdir, FastaLogBase, stamp2);
    var p := FastaName(s, e);
    assert p[|p| - 1] == 'a';
    assert b[|b| - 1] == 'g' && f[|f| - 1] == 'g';
  }

  /** The run a fresh call starts from: empty lists, no files, count 0. */
  function Start(session: Session): Run {
    Run(session, [], [], [], map[], 0, [], [])
  }

  /** `download_assemblies` as written: after the loop, BOTH log files are
      filled from the barcode-error list; the fasta-error list is never
      written. `barcodeStamp` and `fastaStamp` are the two clock readings. */
  function DownloadAssemblies(s: Settings, login: LoginResponse, session: Session, reg: Registry,
                              xs: seq<Exchange>, barcodeStamp: string, fastaStamp: string)
    : (r: Result<Run, Aborted>)
    requires |xs| == |reg|
    ensures r.Success? <==> Loop(s, login, Start(session), reg, xs).Success?
    ensures r.Failure? ==> r == Loop(s, login, Start(session), reg, xs)
    ensures r.Success? ==>
      var loop := Loop(s, login, Start(session), reg, xs).value;
      && r.value == loop.(files := r.value.files)
      && r.value.files.Keys == loop.files.Keys
           + {LogName(s.outdir, BarcodeLogBase, barcodeStamp), LogName(s.outdir, FastaLogBase, fastaStamp)}
      && (forall k :: k in loop.files ==> r.value.files[k] == loop.files[k])
      && r.value.files[LogName(s.outdir, BarcodeLogBase, barcodeStamp)]
           == LogText(LogLines(BarcodeRecords(loop.barcodeErrors)))
      && r.value.files[LogName(s.outdir, FastaLogBase, fastaStamp)]
           == LogText(LogLines(BarcodeRecords(loop.barcodeErrors)))
  {
    match Loop(s, login, Start(session), reg, xs)
    case Failure(a) => Failure(a)
    case Success(loop) =>
      LogNamesDiffer(s.outdir, barcodeStamp, fastaStamp);
      LoopFiles(s, login, Start(session), reg, xs);
      SavedPathsAvoidLogs(s, reg, xs, barcodeStamp, fastaStamp);
      var records := BarcodeRecords(loop.barcodeErrors);
      var files := WriteErrorMessages(loop.files, s.outdir, records, BarcodeLogBase, barcodeStamp);
      Success(loop.(files := WriteErrorMessages(files, s.outdir, records, FastaLogBase, fastaStamp)))
  }

  /** `download_assemblies` with the evident intent: each log file is filled
      from its own list. */
  function DownloadAssembliesIntended(s: Settings, login: LoginResponse, session: Session, reg: Registry,
                                      xs: seq<Exchange>, barcodeStamp: string, fastaStamp: string)
    : (r: Result<Run, Aborted>)
    requires |xs| == |reg|
    ensures r.Success? <==> Loop(s, login, Start(session), reg, xs).Success?
    ensures r.Failure? ==> r == Loop(s, login, Start(session), reg, xs)
    ensures r.Success? ==>
      var loop := Loop(s, login, Start(session), reg, xs).value;
      && r.value == loop.(files := r.value.files)
      && r.value.files.Keys == loop.files.Keys
           + {LogName(s.outdir, BarcodeLogBase, barcodeStamp), LogName(s.outdir, FastaLogBase, fastaStamp)}
      && (forall k :: k in loop.files ==> r.value.files[k] == loop.files[k])
      && r.value.files[LogName(s.outdir, BarcodeLogBase, barcodeStamp)]
           == LogText(LogLines(BarcodeRecords(loop.barcodeErrors)))
      && r.value.files[LogName(s.outdir, FastaLogBase, fastaStamp)]
           == LogText(LogLines(FastaRecords(loop.fastaErrors)))
  {
    match Loop(s, login, Start(session), reg, xs)
    case Failure(a) => Failure(a)
    case Success(loop) =>
      LogNamesDiffer(s.outdir, barcodeStamp, fastaStamp);
      LoopFiles(s, login, Start(session), reg, xs);
      SavedPathsAvoidLogs(s, reg, xs, barcodeStamp, fastaStamp);
      var files := WriteErrorMessages(loop.files, s.outdir, BarcodeRecords(loop.barcodeErrors),
                                      BarcodeLogBase, barcodeStamp);
      Success(loop.(files := WriteErrorMessages(files, s.outdir, FastaRecords(loop.fastaErrors),
                                                FastaLogBase, fastaStamp)))
  }

  /** A fresh downloader whose login is refused with an HTTP error (a 401,
      say) stops at the first entry with the printed message: nothing is
      counted, no FASTA file and no log is written. */
  lemma {:induction false} RejectedLogin(s: Settings, code: int, msg: string, url: string, body: string,
                                         reg: Registry, xs: seq<Exchange>, barcodeStamp: string, fastaStamp: string)
    requires |xs| == |reg| > 0
    ensures DownloadAssemblies(s, LoginHttpError(code, msg, url, body), NoSession, reg, xs, barcodeStamp, fastaStamp)
         == Failure(Aborted(AuthAborted(LoginRejected(LoginErrorMessage(code, msg, url, body))), map[], 0))
  {
  }

  /** As written, a run in which some lookup fails and no download fails
      leaves a fasta-error log that is not empty, where the intended one
      is empty: the log repeats the barcode errors. */
  lemma {:induction false} FastaLogAsWritten(s: Settings, login: LoginResponse, session: Session, reg: Registry,
                          xs: seq<Exchange>, barcodeStamp: string, fastaStamp: string)
    requires |xs| == |reg|
    requires DownloadAssemblies(s, login, session, reg, xs, barcodeStamp, fastaStamp).Success?
    requires CountOutcome(xs, LookupError) > 0 && CountOutcome(xs, DownloadError) == 0
    ensures var log := LogName(s.outdir, FastaLogBase, fastaStamp);
      && DownloadAssemblies(s, login, session, reg, xs, barcodeStamp, fastaStamp).value.files[log] != LogText("")
      && DownloadAssembliesIntended(s, login, session, reg, xs, barcodeStamp, fastaStamp).value.files[log] == LogText("")
  {
    LoopCounts(s, login, Start(session), reg, xs);
    var loop := Loop(s, login, Start(session), reg, xs).value;
    var records := BarcodeRecords(loop.barcodeErrors);
    assert |records| > 0;
    assert LogLines(records) == Text.Join(records[0], "\t") + "\n" + LogLines(records[1..]);
    assert FastaRecords(loop.fastaErrors) == [];
  }

  /** As written, the fasta-error log reads back as the barcode-error records. */
  lemma {:induction false} FastaLogReadsBarcodeErrors(s: Settings, login: LoginResponse, session: Session, reg: Registry,
                                   xs: seq<Exchange>, barcodeStamp: string, fastaStamp: string)
    requires |xs| == |reg|
    requires DownloadAssemblies(s, login, session, reg, xs, barcodeStamp, fastaStamp).Success?
    requires Loggable(BarcodeRecords(Loop(s, login, Start(session), reg, xs).value.barcodeErrors))
    ensures var text := DownloadAssemblies(s, login, session, reg, xs, barcodeStamp, fastaStamp)
                          .value.files[LogName(s.outdir, FastaLogBase, fastaStamp)].text;
      ReadLog(text) == BarcodeRecords(Loop(s, login, Start(session), reg, xs).value.barcodeErrors)
  {
    LogRoundTrip(BarcodeRecords(Loop(s, login, Start(session), reg, xs).value.barcodeErrors));
  }

  /** Corrected, each log reads back as its own list's records. */
  lemma {:induction false} LogsReadBack(s: Settings, login: LoginResponse, session: Session, reg: Registry,
                     xs: seq<Exchange>, barcodeStamp: string, fastaStamp: string)
    requires |xs| == |reg|
    requires DownloadAssembliesIntended(s, login, session, reg, xs, barcodeStamp, fastaStamp).Success?
    requires Loggable(BarcodeRecords(Loop(s, login, Start(session), reg, xs).value.barcodeErrors))
    requires Loggable(FastaRecords(Loop(s, login, Start(session), reg, xs).value.fastaErrors))
    ensures var files := DownloadAssembliesIntended(s, login, session, reg, xs, barcodeStamp, fastaStamp).value.files;
      && ReadLog(files[LogName(s.outdir, BarcodeLogBase, barcodeStamp)].text)
           == BarcodeRecords(Loop(s, login, Start(session), reg, xs).value.barcodeErrors)
      && ReadLog(files[LogName(s.outdir, FastaLogBase, fastaStamp)].text)
           == FastaRecords(Loop(s, login, Start(session), reg, xs).value.fastaErrors)
  {
    LogRoundTrip(BarcodeRecords(Loop(s, login, Start(session), reg, xs).value.barcodeErrors));
    LogRoundTrip(FastaRecords(Loop(s, login, Start(session), reg, xs).value.fastaErrors));
  }
}

=== FILE: registry.dfy ===
/** `import_barcodes`: the barcode list is read line by line; each line is
    stripped and split on a tab into exactly a name and a barcode, and
    stored in a Python dict keyed by name. The dict is modelled as a
    sequence of entries with the dict's update rule: a new name is appended,
    a known name keeps its position and takes the new barcode. */
module Barcodes {
  import opened Wrappers
  import opened Text

  datatype Entry = Entry(name: string, barcode: string)

  /** The ordered name -> barcode mapping, in first-insertion order. */
  type Registry = seq<Entry>

  /** The tuple unpacking of a line failed: `fields` is how many fields the
      stripped line split into; `line` is its 0-based position. The
      exception is not caught, so the whole run stops. */
  datatype ImportError = MalformedLine(line: nat, fields: nat)

  /** One line: stripped of surrounding whitespace, then split on tabs; it
      is accepted exactly when it holds one tab, and the two sides are the
      name and the barcode. */
  function ParseLine(line: string): (r: Result<Entry, nat>)
    ensures r.Success? <==> Count(Strip(line), '\t') == 1
    ensures r.Success? ==>
      && Strip(line) == r.value.name + "\t" + r.value.barcode
      && '\t' !in r.value.name && '\t' !in r.value.barcode
    ensures r.Failure? ==> r.error == Count(Strip(line), '\t') + 1
  {
    var fields := Split(Strip(line), '\t');
    SplitCount(Strip(line), '\t');
    if |fields| == 2 then
      assert Join(fields, "\t") == fields[0] + "\t" + Join(fields[1..], "\t");
      Success(Entry(fields[0], fields[1]))
    else
      Failure(|fields|)
  }

  /** A stripped line `name<TAB>barcode` parses back to its two fields. */
  lemma {:induction false} ParseFormatted(name: string, barcode: string)
    requires '\t' !in name && '\t' !in barcode
    requires |name| > 0 && !IsSpace(name[0])
    requires |barcode| > 0 && !IsSpace(barcode[|barcode| - 1])
    ensures ParseLine(name + "\t" + barcode + "\n") == Success(Entry(name, barcode))
  {
    var s := name + "\t" + barcode;
    assert Strip(s + "\n") == s by {
      assert TrimLeft(s + "\n") == s + "\n";
      assert (s + "\n")[..|s|] == s;
      assert TrimRight(s + "\n") == TrimRight(s);
    }
    SplitJoin([name, barcode], '\t');
    assert Join([name, barcode], "\t") == s;
  }

  function Names(r: Registry): (ns: seq<string>)
    ensures |ns| == |r|
    ensures forall i :: 0 <= i < |r| ==> ns[i] == r[i].name
  {
    seq(|r|, i requires 0 <= i < |r| => r[i].name)
  }

  /** Dict keys are unique. */
  predicate UniqueNames(r: Registry) {
    forall i, j :: 0 <= i < j < |r| ==> r[i].name != r[j].name
  }

  /** `registry[name]`, or `None` when the name is absent. */
  function Lookup(r: Registry, name: string): Option<string>
    decreases |r|
  {
    if |r| == 0 then None
    else if r[0].name == name then Some(r[0].barcode)
    else Lookup(r[1..], name)
  }

  lemma {:induction false} LookupAt(r: Registry, i: nat)
    requires UniqueNames(r) && i < |r|
    ensures Lookup(r, r[i].name) == Some(r[i].barcode)
    decreases |r|
  {
    if i > 0 {
      LookupAt(r[1..], i - 1);
    }
  }

  lemma {:induction false} LookupAbsent(r: Registry, name: string)
    requires name !in Names(r)
    ensures Lookup(r, name) == None
    decreases |r|
  {
    if |r| > 0 {
      assert Names(r[1..]) == Names(r)[1..];
      LookupAbsent(r[1..], name);
    }
  }

  /** `registry[name] = barcode` with dict semantics. */
  function Put(r: Registry, name: string, barcode: string): (r': Registry)
    ensures name in Names(r) ==> Names(r') == Names(r)
    ensures name !in Names(r) ==> r' == r + [Entry(name, barcode)]
    ensures forall i :: 0 <= i < |r| && r[i].name != name ==> r'[i] == r[i]
    ensures forall i :: 0 <= i < |r'| && r'[i].name == name ==> r'[i].barcode == barcode
    ensures UniqueNames(r) ==> UniqueNames(r')
  {
    if name in Names(r) then
      seq(|r|, i requires 0 <= i < |r| => if r[i].name == name then Entry(name, barcode) else r[i])
    else
      r + [Entry(name, barcode)]
  }

  /** After the update the name maps to the new barcode and every other
      name maps to what it mapped to before. */
  lemma {:induction false} PutLookup(r: Registry, name: string, barcode: string, other: string)
    requires UniqueNames(r)
    ensures Lookup(Put(r, name, barcode), name) == Some(barcode)
    ensures other != name ==> Lookup(Put(r, name, barcode), other) == Lookup(r, other)
  {
    var r' := Put(r, name, barcode);
    var i: nat;
    if name in Names(r) {
      i :| 0 <= i < |r| && Names(r)[i] == name;
      assert Names(r')[i] == name;
    } else {
      i := |r|;
    }
    LookupAt(r', i);
    if other != name {
      if other in Names(r) {
        var j :| 0 <= j < |r| && Names(r)[j] == other;
        LookupAt(r, j);
        LookupAt(r', j);
      } else {
        LookupAbsent(r, other);
        assert other !in Names(r');
        LookupAbsent(r', other);
      }
    }
  }

  predicate AllParse(lines: seq<string>) {
    forall i :: 0 <= i < |lines| ==> ParseLine(lines[i]).Success?
  }

  /** The dict filled from already parsed lines, in order; the first
      failed line stops the loop. */
  function Insert(rs: seq<Result<Entry, nat>>): (r: Result<Registry, ImportError>)
    ensures r.Success? <==> forall i :: 0 <= i < |rs| ==> rs[i].Success?
    ensures r.Success? ==> UniqueNames(r.value) && |r.value| <= |rs|
    ensures r.Failure? ==>
      && r.error.line < |rs|
      && rs[r.error.line] == Failure(r.error.fields)
      && forall i :: 0 <= i < r.error.line ==> rs[i].Success?
    decreases |rs|
  {
    if |rs| == 0 then Success([])
    else
      var last := |rs| - 1;
      var init := rs[..last];
      assert forall i :: 0 <= i < last ==> init[i] == rs[i];
      match Insert(init)
      case Failure(e) => Failure(e)
      case Success(reg) =>
        match rs[last]
        case Failure(n) => Failure(MalformedLine(last, n))
        case Success(e) => Success(Put(reg, e.name, e.barcode))
  }

  /** Every line's parse, in file order. */
  function ParseAll(lines: seq<string>): (rs: seq<Result<Entry, nat>>)
    ensures |rs| == |lines|
    ensures forall i :: 0 <= i < |lines| ==> rs[i] == ParseLine(lines[i])
  {
    seq(|lines|, i requires 0 <= i < |lines| => ParseLine(lines[i]))
  }

  /** `import_barcodes`: the lines are parsed and stored in file order;
      the import succeeds exactly when every line holds one tab, and
      otherwise reports the first line that does not. */
  function Import(lines: seq<string>): (r: Result<Registry, ImportError>)
    ensures r.Success? <==> AllParse(lines)
    ensures r.Success? ==> UniqueNames(r.value) && |r.value| <= |lines|
    ensures r.Failure? ==>
      && r.error.line < |lines|
      && ParseLine(lines[r.error.line]) == Failure(r.error.fields)
      && forall i :: 0 <= i < r.error.line ==> ParseLine(lines[i]).Success?
  {
    var rs := ParseAll(lines);
    var r := Insert(rs);
    assert r.Success? <==> AllParse(lines) by {
      assert AllParse(lines) <==> forall i :: 0 <= i < |rs| ==> rs[i].Success?;
    }
    r
  }

  /** Entries read as successfully parsed lines. */
  function Lift(es: seq<Entry>): (rs: seq<Result<Entry, nat>>)
    ensures |rs| == |es|
    ensures forall i :: 0 <= i < |es| ==> rs[i] == Success(es[i])
  {
    seq(|es|, i requires 0 <= i < |es| => Success(es[i]))
  }

  /** The entries the lines spell, one per line, in file order. */
  function Parsed(lines: seq<string>): (es: seq<Entry>)
    requires AllParse(lines)
    ensures |es| == |lines|
    ensures Lift(es) == ParseAll(lines)
  {
    var es := seq(|lines|, i requires 0 <= i < |lines| && AllParse(lines) => ParseLine(lines[i]).value);
    assert Lift(es) == ParseAll(lines);
    es
  }

  /** Reference definition of the key order: each name where it first
      occurs, later repetitions dropped. */
  function FirstOccurrences(ns: seq<string>): seq<string>
    decreases |ns|
  {
    if |ns| == 0 then []
    else
      var init := ns[..|ns| - 1];
      FirstOccurrences(init) + (if ns[|ns| - 1] in init then [] else [ns[|ns| - 1]])
  }

  lemma {:induction false} FirstOccurrencesElements(ns: seq<string>, n: string)
    ensures n in FirstOccurrences(ns) <==> n in ns
    decreases |ns|
  {
    if |ns| > 0 {
      var init := ns[..|ns| - 1];
      FirstOccurrencesElements(init, n);
      assert ns == init + [ns[|ns| - 1]];
    }
  }

  /** Reference definition of the stored value: the barcode of the last
      line that names `name`. */
  function LastBarcode(es: seq<Entry>, name: string): Option<string>
    decreases |es|
  {
    if |es| == 0 then None
    else if es[|es| - 1].name == name then Some(es[|es| - 1].barcode)
    else LastBarcode(es[..|es| - 1], name)
  }

  lemma {:induction false} InsertWithoutDuplicates(es: seq<Entry>)
    requires UniqueNames(es)
    ensures Insert(Lift(es)) == Success(es)
    decreases |es|
  {
    if |es| > 0 {
      var last := |es| - 1;
      var init := es[..last];
      assert Lift(es)[..last] == Lift(init);
      InsertWithoutDuplicates(init);
      assert es[last].name !in Names(init);
      assert es == init + [es[last]];
    }
  }

  /** With no repeated name the registry is the lines' entries, one per
      line, in file order. */
  lemma {:induction false} ImportWithoutDuplicates(lines: seq<string>)
    requires AllParse(lines)
    requires UniqueNames(Parsed(lines))
    ensures Import(lines) == Success(Parsed(lines))
    ensures |Import(lines).value| == |lines|
  {
    InsertWithoutDuplicates(Parsed(lines));
  }

  lemma {:induction false} InsertOrder(es: seq<Entry>)
    ensures Insert(Lift(es)).Success?
    ensures Names(Insert(Lift(es)).value) == FirstOccurrences(Names(es))
    decreases |es|
  {
    if |es| == 0 {
      assert Names([]) == [];
    } else {
      var last := |es| - 1;
      var init := es[..last];
      assert Lift(es)[..last] == Lift(init);
      InsertOrder(init);
      var reg := Insert(Lift(init)).value;
      var e := es[last];
      assert Insert(Lift(es)) == Success(Put(reg, e.name, e.barcode));
      assert Names(es) == Names(init) + [e.name];
      assert Names(es)[..last] == Names(init);
      FirstOccurrencesElements(Names(init), e.name);
      if e.name !in Names(reg) {
        assert Names(Put(reg, e.name, e.barcode)) == Names(reg) + [e.name];
      }
    }
  }

  lemma {:induction false} InsertLastWins(es: seq<Entry>, name: string)
    ensures Insert(Lift(es)).Success?
    ensures Lookup(Insert(Lift(es)).value, name) == LastBarcode(es, name)
    decreases |es|
  {
    if |es| > 0 {
      var last := |es| - 1;
      var init := es[..last];
      assert Lift(es)[..last] == Lift(init);
      InsertLastWins(init, name);
      var reg := Insert(Lift(init)).value;
      var e := es[last];
      assert Insert(Lift(es)) == Success(Put(reg, e.name, e.barcode));
      PutLookup(reg, e.name, e.barcode, name);
    }
  }

  /** In general the keys are in order of first occurrence and each key
      holds the barcode of its last occurrence. */
  lemma {:induction false} ImportLastWins(lines: seq<string>, name: string)
    requires AllParse(lines)
    ensures Import(lines).Success?
    ensures Names(Import(lines).value) == FirstOccurrences(Names(Parsed(lines)))
    ensures Lookup(Import(lines).value, name) == LastBarcode(Parsed(lines), name)
  {
    InsertOrder(Parsed(lines));
    InsertLastWins(Parsed(lines), name);
  }
}

=== FILE: text.dfy ===
/** The few Python string operations the downloader relies on:
    `str.strip()`, `str.split(sep)`, `sep.join(fields)`, `str.replace(c, "")`
    and the decimal rendering of an integer. */
module Text {

  /** The characters `str.isspace()` accepts, which `str.strip()` removes. */
  predicate IsSpace(c: char) {
    || c == ' ' || c == '\t' || c == '\n' || c == '\r'
    || c == '\U{000B}' || c == '\U{000C}'
    || ('\U{001C}' <= c <= '\U{001F}')
    || c == '\U{0085}' || c == '\U{00A0}' || c == '\U{1680}'
    || ('\U{2000}' <= c <= '\U{200A}')
    || c == '\U{2028}' || c == '\U{2029}' || c == '\U{202F}' || c == '\U{205F}' || c == '\U{3000}'
  }

  /** Drops leading whitespace: the result is the suffix of `s` that starts
      at its first non-space character. */
  function TrimLeft(s: string): (r: string)
    ensures |r| <= |s| && r == s[|s| - |r|..]
    ensures forall k :: 0 <= k < |s| - |r| ==> IsSpace(s[k])
    ensures |r| == 0 || !IsSpace(r[0])
    decreases |s|
  {
    if |s| > 0 && IsSpace(s[0]) then TrimLeft(s[1..]) else s
  }

  /** Drops trailing whitespace: the result is the prefix of `s` that ends
      at its last non-space character. */
  function TrimRight(s: string): (r: string)
    ensures |r| <= |s| && r == s[..|r|]
    ensures forall k :: |r| <= k < |s| ==> IsSpace(s[k])
    ensures |r| == 0 || !IsSpace(r[|r| - 1])
    decreases |s|
  {
    if |s| > 0 && IsSpace(s[|s| - 1]) then TrimRight(s[..|s| - 1]) else s
  }

  /** Python's `str.strip()` without arguments. */
  function Strip(s: string): (r: string)
    ensures |r| == 0 || (!IsSpace(r[0]) && !IsSpace(r[|r| - 1]))
    ensures (|s| == 0 || (!IsSpace(s[0]) && !IsSpace(s[|s| - 1]))) ==> r == s
  {
    TrimRight(TrimLeft(s))
  }

  /** Number of occurrences of `c` in `s`. */
  function Count(s: string, c: char): nat
    decreases |s|
  {
    if |s| == 0 then 0 else (if s[0] == c then 1 else 0) + Count(s[1..], c)
  }

  /** Position of the first `c` in `s`. */
  function IndexOf(s: string, c: char): (i: nat)
    requires c in s
    ensures i < |s| && s[i] == c && c !in s[..i]
    decreases |s|
  {
    if s[0] == c then 0 else 1 + IndexOf(s[1..], c)
  }

  /** Python's `sep.join(fields)`. */
  function Join(fields: seq<string>, sep: string): string
    decreases |fields|
  {
    if |fields| == 0 then ""
    else if |fields| == 1 then fields[0]
    else fields[0] + sep + Join(fields[1..], sep)
  }

  /** Python's `s.split(sep)` with an explicit one-character separator:
      the fields between separators, at least one, none containing `sep`,
      and joining them back gives `s`. */
  function Split(s: string, sep: char): (r: seq<string>)
    ensures |r| >= 1
    ensures forall i :: 0 <= i < |r| ==> sep !in r[i]
    ensures Join(r, [sep]) == s
    decreases |s|
  {
    if sep !in s then [s]
    else
      var i := IndexOf(s, sep);
      assert s == s[..i] + [sep] + s[i + 1..];
      [s[..i]] + Split(s[i + 1..], sep)
  }

  /** Splitting yields one field more than there are separators. */
  lemma {:induction false} SplitCount(s: string, sep: char)
    ensures |Split(s, sep)| == Count(s, sep) + 1
    decreases |s|
  {
    if sep !in s {
      CountAbsent(s, sep);
    } else {
      var i := IndexOf(s, sep);
      assert s == s[..i] + [sep] + s[i + 1..];
      CountAppend(s[..i] + [sep], s[i + 1..], sep);
      CountAppend(s[..i], [sep], sep);
      CountAbsent(s[..i], sep);
      assert Count([sep], sep) == 1 by {
        assert [sep][1..] == [];
      }
      SplitCount(s[i + 1..], sep);
    }
  }

  /** Joining fields that contain no separator and splitting again gives
      the fields back. */
  lemma {:induction false} SplitJoin(fields: seq<string>, sep: char)
    requires |fields| >= 1
    requires forall i :: 0 <= i < |fields| ==> sep !in fields[i]
    ensures Split(Join(fields, [sep]), sep) == fields
    decreases |fields|
  {
    if |fields| > 1 {
      var tail := Join(fields[1..], [sep]);
      assert Join(fields, [sep]) == fields[0] + [sep] + tail;
      SplitFirst(fields[0], tail, sep);
      SplitJoin(fields[1..], sep);
      assert fields == [fields[0]] + fields[1..];
    }
  }

  /** A separator-free prefix followed by a separator is the first field. */
  lemma {:induction false} SplitFirst(a: string, b: string, c: char)
    requires c !in a
    ensures Split(a + [c] + b, c) == [a] + Split(b, c)
  {
    var s := a + [c] + b;
    assert s[|a|] == c;
    IndexOfFirst(a, b, c);
    assert s[..|a|] == a;
    assert s[|a| + 1..] == b;
  }

  /** The first separator after a separator-free prefix is right after it. */
  lemma {:induction false} IndexOfFirst(a: string, b: string, c: char)
    requires c !in a
    ensures IndexOf(a + [c] + b, c) == |a|
    decreases |a|
  {
    if |a| > 0 {
      assert (a + [c] + b)[1..] == a[1..] + [c] + b;
      assert a == [a[0]] + a[1..];
      IndexOfFirst(a[1..], b, c);
    }
  }

  lemma {:induction false} CountAbsent(s: string, c: char)
    requires c !in s
    ensures Count(s, c) == 0
    decreases |s|
  {
    if |s| > 0 {
      assert s == [s[0]] + s[1..];
      CountAbsent(s[1..], c);
    }
  }

  lemma {:induction false} CountAppend(a: string, b: string, c: char)
    ensures Count(a + b, c) == Count(a, c) + Count(b, c)
    decreases |a|
  {
    if |a| == 0 {
      assert a + b == b;
    } else {
      assert (a + b)[1..] == a[1..] + b;
      CountAppend(a[1..], b, c);
    }
  }

  /** Python's `s.replace(c, "")` for a one-character `c`. */
  function Remove(s: string, c: char): (r: string)
    ensures c !in r
    ensures |r| <= |s|
    decreases |s|
  {
    if |s| == 0 then ""
    else if s[0] == c then Remove(s[1..], c)
    else [s[0]] + Remove(s[1..], c)
  }

  /** Removing a character that does not occur changes nothing. */
  lemma {:induction false} RemoveAbsent(s: string, c: char)
    requires c !in s
    ensures Remove(s, c) == s
    decreases |s|
  {
    if |s| > 0 {
      assert s == [s[0]] + s[1..];
      RemoveAbsent(s[1..], c);
    }
  }

  /** Removal works piecewise on a concatenation. */
  lemma {:induction false} RemoveAppend(a: string, b: string, c: char)
    ensures Remove(a + b, c) == Remove(a, c) + Remove(b, c)
    decreases |a|
  {
    if |a| == 0 {
      assert a + b == b;
    } else {
      assert (a + b)[1..] == a[1..] + b;
      RemoveAppend(a[1..], b, c);
    }
  }

  function DigitChar(d: nat): (c: char)
    requires d < 10
    ensures '0' <= c <= '9'
  {
    ('0' as int + d) as char
  }

  /** Decimal digits of a natural number, most significant first. */
  function NatToDecimal(n: nat): (r: string)
    ensures |r| >= 1
    ensures forall i :: 0 <= i < |r| ==> '0' <= r[i] <= '9'
    decreases n
  {
    if n < 10 then [DigitChar(n)] else NatToDecimal(n / 10) + [DigitChar(n % 10)]
  }

  /** Python's `str(n)` for an integer. */
  function IntToDecimal(n: int): string {
    if n < 0 then "-" + NatToDecimal(-n) else NatToDecimal(n)
  }
}

=== FILE: wrappers.dfy ===
/** Failure-carrying datatypes used in place of Python exceptions and `None`. */
module Wrappers {

  /** A value that may be absent (Python's `None`). */
  datatype Option<+T> = None | Some(value: T)

  /** Either a value or the reason the computation stopped. */
  datatype Result<+T, +E> = Success(value: T) | Failure(error: E)
}
